=== FILE: README.md ===
# Restaurant Management API: a Dafny model of its core

This project models the logic of the Django REST backend
`rakibul-islam-raju/Restaurant-Management-API` that goes beyond plain CRUD, and
proves properties of that model. The model covers:

- **The checkout** (`OrderListCreateView.post`). It saves one order with the
  submitted totals. It then walks the cart, saving one order item per entry and
  re-saving that entry's menu. No transaction wraps the steps.
- **The visibility rules.** These are the `get_queryset` methods of the
  category, menu, campaign, order and user lists and of the menu detail view,
  plus the keyword filter on menus and the top-rated menu query.
- **The permission class each view picks** for each HTTP method.
- **The review purchase gate** (`ReviewCreateSerializer.validate`), and the
  order detail projection (`get_order_items`, `get_user`).
- **Model invariants**:
  - slug defaulting in `Category.save` and `Menu.save`, and the unique name
    and slug columns;
  - field defaults and validators of orders, reservations and reviews;
  - the user model's name helpers and its unique e-mail login key.

## How the model is built

The database is a value `CoreStore.Db`, with one map per table and the next
value of each primary-key sequence. `CoreStore.DbValid` states the schema's
constraints:

- keys lie below their sequence;
- names and slugs are unique;
- every stored category and menu has its slug already defaulted;
- the foreign keys of menus (to categories) and of order items (to orders and
  menus) point at existing rows. There is no user table, so an order's owner
  is not checked.

`CoreStore.Store` is the running server's database. It is a class whose table
fields the methods update in place. The methods `Store.SaveCategory` and
`Store.SaveMenu`, and the checkout's methods `Checkout.SaveEntry`,
`Checkout.SaveCartItems` and `Checkout.CreateOrder` that work on a `Store`, are
each proved against a specification function on `Db`: `SaveCategorySpec`,
`SaveMenuSpec`, `ItemStep`, `SaveEntries` and `CreateOrderSpec`. The method's new state and its result
equal what that function gives for the old state. The properties are lemmas
about those functions, so they hold for the methods too.

Django's `slugify` is an uninterpreted function `string -> string`. The store
holds it as a constant.

Prices are integers (cents). They are only copied, never computed with.

The checkout's JSON body is modelled as follows:

- a `CartEntry` has optional `menu`, `quantity` and `price` keys;
- a JSON number without fraction or exponent is an exact Python int, any other
  is a Python float, possibly infinite; `int(quantity)` follows Python on these,
  on strings, booleans and null (module `JsonInt`);
- an exception that ends the item loop is the `ItemError` it stands for.

## Model

| member | source | states |
|---|---|---|
| AccountsModels.FullName | accounts/models.py:22-23 | the full name is the first name, one space, then the last name; its length is the sum of both plus one |
| AccountsModels.ShortName | accounts/models.py:25-26 | the short name is the part of the full name before the separating space: a prefix, followed by the space, and the full name is one character longer than short name plus last name |
| AccountsModels.SplitAtFirstSpace | accounts/models.py:22-23 | the partner of `get_full_name`, which the source does not have: splitting at the first space gives two parts that rejoin to the input, with no space in the first part; it fails exactly when there is no space |
| AccountsModels.SplitFullName | accounts/models.py:22-23 | a full name whose first name has no space splits back into the first and last names |
| AccountsModels.Display | accounts/models.py:19-20 | `str(user)` is the e-mail address; DisplayIdentifiesUser states what follows from it |
| AccountsModels.EmailsUnique | accounts/models.py:10-10 | the `unique=True` constraint of the e-mail column: no two rows share an address |
| AccountsModels.UsersWithEmail | accounts/models.py:10-16 | the login lookup returns exactly the rows carrying that e-mail |
| AccountsModels.EmailIsLoginKey | accounts/models.py:10-16 | with the unique e-mail constraint, a login key names at most one user |
| AccountsModels.DisplayIdentifiesUser | accounts/models.py:10-20 | `str(user)` is the e-mail, so two rows that display the same are the same row |
| AccountsViews.UserQueryset | accounts/views.py:42-48 | a superuser gets every user; staff who are not superusers get exactly the non-superusers; anyone else gets nothing; the result is always a sub-table of the users |
| AccountsViews.Tier | accounts/views.py:42-48 | the branch taken: the superuser test wins over the staff test |
| AccountsViews.UserQuerysetGrowsWithTier | accounts/views.py:42-48 | a caller in a higher branch never sees fewer users |
| AccountsViews.UserQuerysetDependsOnTierOnly | accounts/views.py:42-48 | callers in the same branch see the same users |
| AccountsViews.StaffSeesNoSuperuser | accounts/views.py:45-46 | staff who are not superusers never see a superuser, and do see themselves |
| CoreModels.DefaultSlug | core/models.py:41-44 | a non-empty slug is kept; an empty one becomes `slugify(name)` |
| CoreModels.DefaultSlugIdempotent | core/models.py:41-44 | defaulting twice gives the slug that defaulting once gives |
| CoreModels.SavedCategory | core/models.py:41-44 | `Category.save` changes the slug only, and only when it is empty |
| CoreModels.SavedMenu | core/models.py:63-66 | `Menu.save` changes the slug only, and only when it is empty |
| CoreModels.SavedRowsAreSettled | core/models.py:41-44 | a saved row is a fixed point of the save's defaulting |
| CoreModels.NewOrder | core/models.py:69-75 | a new order is unpaid, unserved and active, and carries its owner and totals unchanged |
| CoreModels.StatusValue | core/models.py:101-114 | each status is stored as a text that fits the 10-character column |
| CoreModels.ParseStatus | core/models.py:101-114 | an accepted status text is the stored text of the status it gives |
| CoreModels.StatusRoundTrip | core/models.py:101-114 | exactly "pending", "confirmed" and "cancelled" are accepted, each as its own status |
| CoreModels.Strip | core/models.py:107-108 | the whitespace stripping the serializer's text fields apply: the result is empty exactly when the text is all whitespace; otherwise it is the slice of the text that starts at the first non-space and is followed only by whitespace, and it starts and ends with a non-space; a text without whitespace at its ends is kept |
| CoreModels.CleanText | core/models.py:107-108 | a required `CharField(max_length=100)` without `blank=True`: accepted exactly when present and its stripped text is non-empty, at most 100 characters and free of null characters (DRF's `ProhibitNullCharactersValidator`), and the stripped text is kept; an error names the field |
| CoreModels.CleanPerson | core/models.py:109-113 | a missing `person` defaults to 2; a given one is accepted exactly when it is at most 12 and not below the IntegerField range, and then unchanged; anything above 12 is reported against the bound 12 |
| CoreModels.CleanStatus | core/models.py:101-114 | the required choice field accepts exactly the three stored texts, giving the status whose text it is |
| CoreModels.CleanActive | core/models.py:9 | the optional `is_active` field (`BooleanField(default=True)`, writable through `fields = "__all__"`): absent keeps the default; a boolean is kept; 0 and 1, as ints or floats, and DRF's true and false texts are read as their boolean; null and every other value are refused, with the error naming the field |
| CoreModels.BooleanTextsDisjoint | core/models.py:9 | no text is read both as true and as false |
| CoreModels.ReservationErrors | core/models.py:100-114 | the errors of a rejected reservation, keyed by field: an entry for a field exactly when that field failed, carrying its error |
| CoreModels.CleanReservation | core/models.py:100-114 | a reservation is accepted exactly when `name`, `time`, `person`, `status` and `is_active` all pass; it then carries the stripped name and time (1 to 100 characters), the person count as `CleanPerson` cleaned it (at most 12), the given status, and the active flag as `CleanActive` read it (set when absent); a rejection reports each failing field's error and nothing about a field that passed |
| CoreModels.CleanRating | core/models.py:126-126 | a rating is accepted exactly when it lies in 0..5, and is then unchanged |
| CoreStore.DbValid | core/models.py:30-97 | the schema's constraints: keys below their sequences, unique category and menu names and slugs, settled slugs, and foreign keys of menus and items pointing at stored rows; the save lemmas show each write keeps it |
| CoreStore.SaveCategorySpec | core/models.py:41-44 | `Category.save`: the slug is defaulted, and the row is written under its key unless another row holds its name or slug; SaveCategoryOutcome states it |
| CoreStore.SaveMenuSpec | core/models.py:63-66 | `Menu.save`: as for categories, plus a refusal when the category does not exist; SaveMenuKeepsValid and ResaveMenuChangesNothing state its properties |
| CoreStore.TargetKey | core/models.py:44-44 | a save writes the instance's own key, or else the next key of the sequence |
| CoreStore.NextAfter | core/models.py:44-44 | after a save the sequence lies above the key written and has not moved back, as SQLite's AUTOINCREMENT does |
| CoreStore.SaveCategoryOutcome | core/models.py:30-44 | the row is written exactly when no other category holds its name or slug; a refused write changes nothing; a successful one writes that one row with the defaulted slug |
| CoreStore.SaveCategoryKeepsValid | core/models.py:30-44 | saving a category keeps every schema constraint |
| CoreStore.SaveMenuKeepsValid | core/models.py:47-66 | saving a menu keeps every schema constraint, including unique name and slug and an existing category |
| CoreStore.CategoryWriteKeepsUnique | core/models.py:31-32 | writing a category whose name (or slug) no other row holds keeps that column unique |
| CoreStore.MenuWriteKeepsUnique | core/models.py:49-50 | writing a menu whose name (or slug) no other row holds keeps that column unique |
| CoreStore.SaveCategoryTwice | core/models.py:41-44 | saving the instance a successful save returned, under its key, changes nothing |
| CoreStore.ResaveMenuChangesNothing | core/views.py:183-183 | re-saving a stored menu under its own key succeeds and writes the row back unchanged |
| CoreStore.Store.SaveCategory | core/models.py:41-44 | the tables, the instance and the result after `Category.save` are those `SaveCategorySpec` gives; the constraints still hold |
| CoreStore.SaveMenuKeepsItems | core/models.py:63-66 | saving a menu, accepted or refused, leaves the order items as they were |
| CoreStore.Store.SaveMenu | core/models.py:63-66 | the tables, the instance and the result after `Menu.save` are those `SaveMenuSpec` gives; the constraints still hold |
| CoreSerializers.PurchaseRows | core/serializers.py:86-91 | every row of the gate's queryset is an item of the menu in a paid and served order of the user |
| CoreSerializers.PurchaseRowsMatchPromise | core/serializers.py:86-92 | the queryset is non-empty exactly when such an item and order exist |
| CoreSerializers.ValidateReview | core/serializers.py:84-95 | validation succeeds exactly when the user has a paid and served order containing the menu; on success the input comes back unchanged; otherwise the error is "You must order this menu to review." |
| CoreSerializers.GateIsMonotone | core/serializers.py:86-91 | adding orders or items can turn a rejection into an acceptance, never the reverse |
| CoreSerializers.OtherItemsDoNotCount | core/serializers.py:88-90 | an item in an unpaid, unserved or someone else's order, or of another menu, never makes validation succeed |
| CoreSerializers.GateIgnoresRatingAndComment | core/serializers.py:84-95 | the verdict depends on the menu only and consults no existing review, so a repeat review passes whenever the first did |
| CoreSerializers.OrderItemsOf | core/serializers.py:134-137 | the order's items are exactly the rows whose order is this order, each as stored |
| CoreSerializers.OrderDetailOf | core/serializers.py:126-142 | the detail carries the order, its owner, and exactly its items |
| CoreSerializers.OrderItemsAreDisjoint | core/serializers.py:134-137 | two different orders never share an item |
| CoreViews.ActiveScope | core/views.py:41-45 | staff see every row; anyone else sees exactly the active rows; rows are unchanged |
| CoreViews.CategoryQueryset | core/views.py:41-45 | staff see every category; anyone else sees exactly the active ones |
| CoreViews.CampaignQueryset | core/views.py:198-202 | staff see every campaign; anyone else sees exactly the active ones |
| CoreViews.MenuDetailQueryset | core/views.py:111-115 | staff reach every menu; anyone else reaches exactly the active ones |
| CoreViews.Fold | core/views.py:85-85 | case folding lowers exactly the ASCII capitals, as SQLite's LIKE does |
| CoreViews.IContains | core/views.py:85-85 | `name__icontains`: the keyword occurs at some offset of the name, ignoring case; IContainsIgnoresCase and KeywordOnlyNarrows state its properties |
| CoreViews.Truthy | core/views.py:84-84 | `if keyword:`: the keyword is present and not empty |
| CoreViews.FoldAll | core/views.py:85-85 | folding a text folds each character and keeps the length |
| CoreViews.MenuQueryset | core/views.py:82-92 | with a non-empty keyword, exactly the menus whose name contains it ignoring case; without one, no name filter; then only active menus for non-staff |
| CoreViews.KeywordOnlyNarrows | core/views.py:83-87 | a keyword only removes rows; a missing or empty keyword filters nothing; unfiltered, the list shows what the detail view reaches |
| CoreViews.IContainsIgnoresCase | core/views.py:85-85 | a name contains a keyword exactly when it contains the keyword's folded form |
| CoreViews.FoldIdempotent | core/views.py:85-85 | folding twice is folding once |
| CoreViews.StaffSeeMore | core/views.py:89-92 | staff see every menu anyone else sees; the extra ones are exactly the inactive ones |
| CoreViews.OrderQueryset | core/views.py:136-140 | staff see every order; a logged-in customer sees exactly their own; the anonymous user gets the filter's failure |
| CoreViews.CustomersSeeDisjointOrders | core/views.py:139-140 | two different customers' order lists never overlap |
| CoreViews.PermissionFor | core/views.py:53-57 | catalogue views: GET is AllowAny and the rest IsAdminUser; contacts: POST is AllowAny and the rest admin; reservations: POST is IsAuthenticated and the rest admin; reviews: POST is IsAuthenticated and the rest AllowAny; orders: GET is staff-or-owner and the rest IsAuthenticated; each as an if-and-only-if |
| CoreViews.Grants | core/views.py:53-57 | what each permission class admits: AllowAny everyone, IsAuthenticated a logged-in caller, IsAdminUser staff, and the staff-or-owner class its given verdict |
| CoreViews.CatalogueWritesNeedStaff | core/views.py:100-104 | on the category, menu and campaign views, every non-GET method admits exactly staff |
| CoreViews.AnonymousAccess | core/views.py:223-227 | the anonymous user gets through exactly where the class chosen is AllowAny |
| CoreViews.StaffPassEverywhere | core/views.py:242-246 | staff pass every class the views choose, except the order list's own |
| CoreViews.HeadIsNotRead | core/views.py:204-208 | HEAD and OPTIONS on a catalogue view are checked as writes, so only staff pass |
| TopRated.RatingTotals | core/views.py:76-76 | a menu's rating count never exceeds the number of reviews and is zero exactly when no review is about the menu; its sum is at most five times the count when ratings are valid, and zero when there is none |
| TopRated.AverageRating | core/views.py:76-76 | `Avg("review__rating")` is NULL exactly when no review is about the menu; otherwise it is a mean, in 0..5 when ratings are valid |
| TopRated.AtMostIsTotalPreorder | core/views.py:77-77 | the ascending order of the annotation, NULL included, is reflexive, total and transitive |
| TopRated.BestExists | core/views.py:77-77 | every non-empty set of menus has a highest-ranked member |
| TopRated.SelectBest | core/views.py:77-77 | the selection takes min(n, pool size) distinct menus of the pool in non-increasing order, and no menu left out ranks above one kept |
| TopRated.TopRatedMenus | core/views.py:72-78 | the result holds only active menus, distinct, at most four (fewer only when fewer are active), in non-increasing order of average rating, with no active menu left out ranking above one kept |
| TopRated.TopRatedMeansDescend | core/views.py:77-77 | among returned menus with reviews, the mean ratings do not increase down the list |
| JsonInt.ParseInt | core/views.py:177-177 | `int()` of a text accepts exactly an optional sign followed by digits; the sign decides the sign of the value |
| JsonInt.Truncate | core/views.py:177-177 | `int()` of a float truncates toward zero |
| JsonInt.PyInt | core/views.py:177-177 | `int()` of a JSON value fails exactly on null, on a list or object, on text that is not an integer literal, and on an infinite float (OverflowError) |
| JsonInt.ShowNat | core/views.py:177-177 | the decimal text of a natural number is non-empty and all digits |
| JsonInt.DigitsOfShowNat | core/views.py:177-177 | reading the decimal digits of n back gives n |
| JsonInt.ParseShowInt | core/views.py:177-177 | every integer written as text parses back to itself |
| JsonInt.IntegralQuantitiesUnchanged | core/views.py:177-177 | an integral quantity passes through `int()` unchanged, sent as an integer, as a float or as text |
| Checkout.EmptyCartGuard | core/views.py:155-155 | the guard as written: the cart is present and non-empty and at the same time of length zero |
| Checkout.EmptyCartGuardNeverFires | core/views.py:155-155 | the guard as written is false for every cart, missing, empty or not |
| Checkout.OrderFieldsValid | core/views.py:160-167 | the order serializer accepts exactly when tax and total are present and the nested user field is accepted |
| Checkout.EntryError | core/views.py:171-181 | an entry raises nothing exactly when its menu key is present and names a stored menu, its quantity is present and converts, its price is present, and `int(quantity)` fits the integer column; a quantity outside the column is refused at `item.save()` after every other check passed |
| Checkout.ItemFor | core/views.py:173-180 | the item is linked to the order and its menu, and is active; it copies the menu's current name and image, `int(quantity)` (within the column's range) and the price |
| Checkout.ItemStep | core/views.py:172-181 | one pass adds the entry's item under the next item key and changes nothing else |
| Checkout.ItemStepKeepsValid | core/views.py:172-181 | saving the item of a passing entry for an existing order keeps every constraint |
| Checkout.SaveEntries | core/views.py:171-183 | the item loop over the cart; SaveEntriesStops, SaveEntriesFrame, SaveEntriesItemKeys, SaveEntriesItemAt and SaveEntriesKeepsOrders state what it does |
| Checkout.SaveEntriesUnfold | core/views.py:171-183 | the loop run from a passing entry is one pass followed by the run from the next entry |
| Checkout.SaveEntriesFrame | core/views.py:171-183 | the loop changes only the item table, and moves the item sequence by the number of items saved |
| Checkout.SaveEntriesKeepsValid | core/views.py:171-183 | the loop keeps every constraint |
| Checkout.SaveEntriesStops | core/views.py:171-183 | the loop saves one item per entry until the first entry that raises; it stops there with that entry's error, or completes the cart without error |
| Checkout.SaveEntriesItemKeys | core/views.py:171-181 | after the loop the item table holds the earlier rows unchanged plus exactly the next `saved` keys |
| Checkout.SaveEntriesItemAt | core/views.py:171-181 | the i-th saved item sits under the i-th next key and is built from the i-th entry |
| Checkout.SaveEntriesKeepsOrders | core/views.py:171-183 | the loop never touches the order table |
| Checkout.InsertOrder | core/views.py:167-168 | saving the order adds that one row under the next order key and changes nothing else |
| Checkout.InsertOrderKeepsValid | core/views.py:167-168 | saving the order keeps every constraint |
| Checkout.Finish | core/views.py:185-186 | the tables are those the loop left; the response is `OrderDetailOf` the order when the loop completed, and otherwise the exception with the order's key and the number of items saved |
| Checkout.CreateOrderSpec | core/views.py:150-186 | the whole request from the tables before to the tables and response after; CheckoutSavesOneOrder and the lemmas below state what it does, and CreateOrder is proved equal to it |
| Checkout.AcceptedCheckout | core/views.py:160-186 | an accepted order with a cart answers what the item loop over the whole cart, run after the order insert, leads to; the insert leaves items and menus alone |
| Checkout.CheckoutSavesOneOrder | core/views.py:160-168 | a refused order changes nothing; an accepted one adds exactly one order, owned by the caller, with the submitted tax and total, and leaves categories and menus unchanged |
| Checkout.NoItemOfNextOrder | core/views.py:168-168 | no stored item belongs to the order key handed out next |
| Checkout.CreatedRanWholeCart | core/views.py:171-186 | a checkout that answers with the order ran the loop over the whole cart without error |
| Checkout.CheckoutItemKeys | core/views.py:171-186 | the answered order holds exactly one item per cart entry, under the next item keys, and no other item |
| Checkout.CheckoutItemsMatchCart | core/views.py:171-181 | each item of the answered order comes from its entry, in cart order, with the menu's name and image at that moment and the entry's quantity and price |
| Checkout.CheckoutKeepsOldItems | core/views.py:150-186 | whatever the outcome, every item stored before the request stays, unchanged |
| Checkout.AbortedCheckoutKeepsPartialOrder | core/views.py:168-181 | when an entry raises, the new order stays saved; the error is that entry's and every earlier entry passed; the item table gains exactly the next `saved` keys; with no cart at all, the order stays and no item is added |
| Checkout.AbortedCheckoutOrderItems | core/views.py:168-181 | after the exception the new order's items are exactly those under the next `saved` item keys |
| Checkout.AbortedCheckoutItemsMatchCart | core/views.py:171-181 | after the exception each saved item is built from its entry, in cart order, from the menu as it stood |
| Checkout.EmptyCartCreatesEmptyOrder | core/views.py:155-186 | an empty cart gets no 400: the order is saved and answered with no items |
| Checkout.IntendedCreateOrderSpec | core/views.py:155-158 | the checkout with the intended guard: a missing or empty cart is refused first, and past the guard it is the checkout as written |
| Checkout.IntendedCartGuard | core/views.py:155-158 | the intended guard fires exactly for a missing or empty cart |
| Checkout.IntendedCheckoutNeedsItems | core/views.py:155-186 | with the intended guard, a missing or empty cart is refused before anything is saved, the loop never meets a missing cart, and every answered order has an item |
| Checkout.SaveEntry | core/views.py:172-183 | one pass of the loop body (`item.save()`, then `menu.save()`) leaves the tables `ItemStep` gives and keeps the constraints |
| Checkout.SaveCartItems | core/views.py:171-183 | the loop leaves the tables, the count of items saved and the exception that `SaveEntries` gives, and keeps the constraints |
| Checkout.CreateOrder | core/views.py:150-186 | the request leaves the tables and the response that `CreateOrderSpec` gives, and keeps the constraints |

## Left out

- Timestamps (`created_at`, `updated_at`), image storage, JSON rendering and HTTP status codes are not modelled.
- `get_serializer_class` of the list views is not modelled. It only picks a serializer by method.
- The retrieve, update and destroy behaviour of the detail views is not modelled. Its quirks are out too: the campaign detail's `CategorySerializer` (core/views.py:214) and the review detail's reservation queryset (core/views.py:277).
- Migrations and the URL table are not modelled. The item shape (`name`, `image`, an optional menu) follows core/migrations/0004_orderitem_name_alter_orderitem_menu.py:14-26 rather than core/models.py:84-97. In core/urls.py, `menus/<pk>` (line 29) comes before `menus/top-rated` (line 30), so the top-rated route is never reached: `<pk>` takes any text, so `top-rated` is read as a menu's key.
- Login, registration, JWT tokens, `UserManager` and password hashing (accounts/views.py:22-35) are not modelled.
- `IsStaffOrOwnerAuthenticated` and `IsOwner` live in core/permissions, which is not part of this model. Their verdict is a parameter of `CoreViews.Grants`.
- `OrderSerializer.is_valid` (core/views.py:160-167) is modelled as both totals present plus a given verdict on the nested `user` field (core/serializers.py:113). That nested serializer receives a bare primary key; how it treats one is not part of this model.
- `Decimal(entry["price"])` is modelled as "the price key is present". Prices are integer cents, and the decimal-to-float conversion of the price columns is not modelled.
- JsonInt.PyInt: a JSON number with a fraction or an exponent reaches the view as the double the parser rounded it to. The model takes that float as given, so the rounding itself is not modelled: `2.9999999999999999` arrives as 3.0, and the model only sees the 3.0. A number too large for a double (`1e400`) is the infinite float, on which `int()` fails.
- JsonInt.ParseInt: does not accept the surrounding whitespace, the digit-group underscores or the non-ASCII digits Python's `int()` also accepts. The checkout's behaviour on such quantities is left out.
- Checkout.EntryError: a `menu` value that is not an integer key, a non-object cart entry, and a price that `Decimal()` refuses are not modelled. The entry's keys are typed.
- Checkout.EntryError: the quantity column's range is the 32-bit one of PostgreSQL and MySQL. SQLite stores 64-bit integers and refuses only quantities beyond that range.
- CoreViews.Fold: follows SQLite, whose LIKE folds only ASCII letters. On PostgreSQL `icontains` compares the `UPPER()` of both sides, which also folds non-ASCII letters, so there the keyword "É" matches "école", and in the model it does not.
- CoreStore.NextAfter: follows SQLite's AUTOINCREMENT, which moves the sequence past a key written explicitly. A PostgreSQL sequence does not move, so there a later insert can collide with such a key.
- CoreModels.CleanReservation: covers the field validation only. The nested `user` serializer (core/serializers.py:99) and the create that follows validation are not modelled; the user is a parameter. An explicit `null` for `person`, which the serializer refuses, is not modelled: an absent `person` takes its default of 2. A `name` or `time` sent as a number rather than text is not modelled. `CleanActive`'s true and false texts are those of recent DRF releases; the source does not pin a version.
- CoreModels.CleanText: reports one error per field. When a text is both too long and holds a null character, DRF lists both messages; the model reports only the length error.
- Checkout.CreateOrderSpec: a cart that is not a list is not modelled; the cart is a sequence of entries or absent. With `order_items: 5`, `len()` raises a TypeError before anything is saved. With `order_items: "ab"`, the order is saved and then the first entry, a character, raises on its keys.
- The ordering of rows (`ordering = ["-id"]`) and the order of the item list inside an order's detail are not modelled. Tables are maps.
- The `__str__` methods of the core models are not modelled. Several of them read fields that do not exist (core/models.py:27, 97, 120, 133).
- Transactions, concurrent requests and deletions (with their `CASCADE`, `SET_NULL` and `PROTECT` rules) are not modelled.
- Where the project's documentation and the code disagree, the model follows the code:
  - an empty cart is accepted rather than refused (see Findings);
  - a review rating of 0 is accepted (`PositiveSmallIntegerField` with only a maximum validator);
  - the order's totals are taken as submitted and never recomputed from the items;
  - a reservation's `person` has no lower bound other than the IntegerField range;
  - a menu's slug is left empty when `slugify` of its name is empty (a name such as "!!!", or one written only in letters without an ASCII decomposition, such as "борщ" or "炒饭"; accented Latin letters such as "é" decompose and survive as "e"), and a second such menu is then refused by the unique slug.
- Database backends: `CoreViews.Fold` and `CoreStore.NextAfter` follow SQLite; the quantity column's range (`Checkout.EntryError`) and `CleanPerson`'s lower bound follow the 32-bit integer columns of PostgreSQL and MySQL.
- TopRated.TopRatedMenus: the query's tie order and the database's NULL placement are not fixed. The result is one of the orders the database may return, and NULL placement is a parameter.

## Findings

| source | as written | input that shows it | evidently intended | confidence | as-written member | corrected member |
|---|---|---|---|---|---|---|
| core/views.py:155 | `order_items and len(order_items) == 0` is never true: a non-empty list fails the length test and an empty one is falsy. A missing cart gets past it too, and then iterating `None` raises after the order was saved. | `order_items: []` saves an order with no items and answers 200; a body without `order_items` saves an order and then fails | answer 400 "No Order Items" for a missing or empty cart before saving anything | high, not executed | Checkout.EmptyCartCreatesEmptyOrder | Checkout.IntendedCheckoutNeedsItems |

=== FILE: accounts_models.dfy ===
/**
 * The custom user model of the accounts app: a user row whose login key is
 * the e-mail address, and the name helpers Django's admin calls.
 */
module AccountsModels {
  import opened Wrappers

  /** One row of the user table (the primary key is the key of the table map). */
  datatype User = User(
    email: string,
    firstName: string,
    lastName: string,
    isStaff: bool,
    isSuperuser: bool,
    isActive: bool)

  /** `request.user`: the anonymous user, or a logged-in row with its primary key. */
  datatype Caller = Anonymous | LoggedIn(pk: nat, user: User) {
    /** The anonymous user answers False to both role flags. */
    predicate IsStaff() { LoggedIn? && user.isStaff }
    predicate IsSuperuser() { LoggedIn? && user.isSuperuser }
    predicate IsAuthenticated() { LoggedIn? }
  }

  /** The first name, one space, the last name. */
  function FullName(u: User): (r: string)
    ensures |r| == |u.firstName| + |u.lastName| + 1
    ensures r[..|u.firstName|] == u.firstName
    ensures r[|u.firstName|] == ' '
    ensures r[|u.firstName| + 1..] == u.lastName
  {
    u.firstName + " " + u.lastName
  }

  /** The short name: the part of the full name before the separating space. */
  function ShortName(u: User): (r: string)
    ensures r <= FullName(u) && |r| < |FullName(u)| && FullName(u)[|r|] == ' '
    ensures |FullName(u)| == |r| + |u.lastName| + 1
  {
    u.firstName
  }

  /** `str(user)` is the e-mail address. */
  function Display(u: User): string
  {
    u.email
  }

  /**
   * Splits a display name at its first space. It is the partner of FullName:
   * see SplitFullName.
   */
  function SplitAtFirstSpace(s: string): (r: Option<(string, string)>)
    ensures r.Some? ==> r.value.0 + " " + r.value.1 == s && ' ' !in r.value.0
    ensures r.None? <==> ' ' !in s
  {
    if s == [] then None
    else if s[0] == ' ' then Some(([], s[1..]))
    else match SplitAtFirstSpace(s[1..])
      case None => None
      case Some(parts) => Some(([s[0]] + parts.0, parts.1))
  }

  lemma {:induction false} SplitJoin(first: string, last: string)
    requires ' ' !in first
    ensures SplitAtFirstSpace(first + " " + last) == Some((first, last))
  {
    var s := first + " " + last;
    if first == [] {
      assert s[1..] == last;
    } else {
      assert s[0] == first[0];
      assert s[1..] == first[1..] + " " + last;
      SplitJoin(first[1..], last);
      assert [first[0]] + first[1..] == first;
    }
  }

  /** A full name can be split back into the two names when the first name has no space. */
  lemma SplitFullName(u: User)
    requires ' ' !in u.firstName
    ensures SplitAtFirstSpace(FullName(u)) == Some((u.firstName, u.lastName))
  {
    SplitJoin(u.firstName, u.lastName);
  }

  /** The unique constraint on the e-mail column. */
  ghost predicate EmailsUnique(users: map<nat, User>)
  {
    forall a, b :: a in users && b in users && users[a].email == users[b].email ==> a == b
  }

  /** The rows a login with `email` looks up. */
  function UsersWithEmail(users: map<nat, User>, email: string): (r: set<nat>)
    ensures forall k :: k in r <==> k in users && users[k].email == email
  {
    set k | k in users && users[k].email == email
  }

  /** With unique e-mails, a login key names at most one user. */
  lemma EmailIsLoginKey(users: map<nat, User>, email: string)
    requires EmailsUnique(users)
    ensures |UsersWithEmail(users, email)| <= 1
  {
    var found := UsersWithEmail(users, email);
    if found != {} {
      var a :| a in found;
      assert found == {a};
    }
  }

  /** Two rows that display the same are the same row. */
  lemma DisplayIdentifiesUser(users: map<nat, User>, a: nat, b: nat)
    requires EmailsUnique(users) && a in users && b in users
    requires Display(users[a]) == Display(users[b])
    ensures a == b
  {
  }
}

=== FILE: accounts_views.dfy ===
/** The user list endpoint of the accounts app: who sees which user rows. */
module AccountsViews {
  import opened AccountsModels

  /**
   * `UserListView.get_queryset`: a superuser sees every user, a staff member who
   * is not a superuser sees the non-superusers, anybody else sees nothing.
   */
  function UserQueryset(users: map<nat, User>, caller: Caller): (r: map<nat, User>)
    ensures forall k :: k in r ==> k in users && r[k] == users[k]
    ensures caller.IsSuperuser() ==> r == users
    ensures !caller.IsSuperuser() && caller.IsStaff() ==>
              forall k :: k in r <==> k in users && !users[k].isSuperuser
    ensures !caller.IsSuperuser() && !caller.IsStaff() ==> r == map[]
  {
    if caller.IsSuperuser() then users
    else if caller.IsStaff() then map k | k in users && !users[k].isSuperuser :: users[k]
    else map[]
  }

  /** The role tier the queryset branches on; the superuser test comes first. */
  function Tier(caller: Caller): (t: nat)
    ensures t <= 2
    ensures t == 2 <==> caller.IsSuperuser()
    ensures t == 0 <==> !caller.IsSuperuser() && !caller.IsStaff()
  {
    if caller.IsSuperuser() then 2 else if caller.IsStaff() then 1 else 0
  }

  /** A higher tier never sees fewer users. */
  lemma UserQuerysetGrowsWithTier(users: map<nat, User>, a: Caller, b: Caller)
    requires Tier(a) <= Tier(b)
    ensures UserQueryset(users, a).Keys <= UserQueryset(users, b).Keys
  {
    if Tier(a) == Tier(b) {
      UserQuerysetDependsOnTierOnly(users, a, b);
    }
  }

  /** The queryset depends on the caller only through the tier. */
  lemma UserQuerysetDependsOnTierOnly(users: map<nat, User>, a: Caller, b: Caller)
    requires Tier(a) == Tier(b)
    ensures UserQueryset(users, a) == UserQueryset(users, b)
  {
  }

  /** A staff member who is not a superuser sees no superuser, and sees themselves. */
  lemma StaffSeesNoSuperuser(users: map<nat, User>, caller: Caller)
    requires caller.IsStaff() && !caller.IsSuperuser()
    ensures forall k :: k in UserQueryset(users, caller) ==> !users[k].isSuperuser
    ensures caller.pk in users && users[caller.pk] == caller.user ==>
              caller.pk in UserQueryset(users, caller)
  {
  }
}

=== FILE: checkout.dfy ===
/**
 * `OrderListCreateView.post`: the checkout. It saves one order with the
 * submitted totals, then walks the cart saving one order item per entry,
 * with no transaction around the two steps.
 */
module Checkout {
  import opened Wrappers
  import opened CoreModels
  import opened CoreStore
  import opened CoreSerializers
  import opened JsonInt

  /** One entry of the submitted cart; a key the client left out is None. */
  datatype CartEntry = CartEntry(menu: Option<nat>, quantity: Option<JsonValue>, price: Option<Price>)

  /** The body of a checkout request. */
  datatype OrderRequest = OrderRequest(
    orderItems: Option<seq<CartEntry>>,
    tax: Option<Price>,
    totalPrice: Option<Price>)

  /** The exception that ends the item loop. */
  datatype ItemError =
    | NotIterable              // `order_items` absent: iterating None raises
    | MissingKey(key: string)  // the entry lacks "menu", "quantity" or "price"
    | MenuDoesNotExist(id: nat)
    | InvalidQuantity          // `int(...)` of the quantity raises
    | QuantityOutOfRange       // `item.save()` refuses a quantity the integer column cannot hold

  datatype CheckoutOutcome =
    | NoOrderItems                                   // the 400 response "No Order Items"
    | OrderInvalid                                   // the order serializer refused the fields
    | Created(detail: OrderDetail)                   // the order with its items
    | Aborted(order: nat, saved: nat, error: ItemError)  // an exception after the order was saved

  /** `order_items and len(order_items) == 0`, as written. */
  function EmptyCartGuard(orderItems: Option<seq<CartEntry>>): bool
  {
    orderItems.Some? && |orderItems.value| != 0 && |orderItems.value| == 0
  }

  lemma EmptyCartGuardNeverFires(orderItems: Option<seq<CartEntry>>)
    ensures !EmptyCartGuard(orderItems)
  {
  }

  /**
   * The order serializer's verdict: both totals present, and the nested user
   * field accepted (its validation is not part of this model).
   */
  predicate OrderFieldsValid(req: OrderRequest, userFieldAccepted: bool)
  {
    userFieldAccepted && req.tax.Some? && req.totalPrice.Some?
  }

  /**
   * Why entry `e` raises, checked in the order the loop body evaluates it:
   * the menu lookup, the item's constructor arguments, then `item.save()`.
   */
  function EntryError(menus: map<nat, Menu>, e: CartEntry): (r: Option<ItemError>)
    ensures r.None? <==> && e.menu.Some? && e.menu.value in menus && e.quantity.Some?
                         && PyInt(e.quantity.value).Some? && e.price.Some?
                         && IntegerFieldMin <= PyInt(e.quantity.value).value <= IntegerFieldMax
    ensures r == Some(QuantityOutOfRange) <==> && e.menu.Some? && e.menu.value in menus && e.price.Some?
                                               && e.quantity.Some? && PyInt(e.quantity.value).Some?
                                               && !(IntegerFieldMin <= PyInt(e.quantity.value).value <= IntegerFieldMax)
  {
    if e.menu.None? then Some(MissingKey("menu"))
    else if e.menu.value !in menus then Some(MenuDoesNotExist(e.menu.value))
    else if e.quantity.None? then Some(MissingKey("quantity"))
    else if PyInt(e.quantity.value).None? then Some(InvalidQuantity)
    else if e.price.None? then Some(MissingKey("price"))
    else if !(IntegerFieldMin <= PyInt(e.quantity.value).value <= IntegerFieldMax) then Some(QuantityOutOfRange)
    else None
  }

  /** The item an entry that raises nothing becomes: the menu's name and image at this moment. */
  function ItemFor(menus: map<nat, Menu>, e: CartEntry, order: nat): (item: OrderItem)
    requires EntryError(menus, e).None?
    ensures item.menu == e.menu && item.order == order && item.isActive
    ensures item.name == menus[e.menu.value].name && item.image == menus[e.menu.value].image
    ensures item.quantity == PyInt(e.quantity.value).value && item.price == e.price.value
    ensures IntegerFieldMin <= item.quantity <= IntegerFieldMax
  {
    var menu := menus[e.menu.value];
    OrderItem(e.menu, order, menu.name, PyInt(e.quantity.value).value, e.price.value, menu.image, DefaultIsActive)
  }

  /** Where the item loop stops: the tables, the number of items saved, the exception if any. */
  datatype Progress = Progress(db: Db, saved: nat, error: Option<ItemError>)

  /**
   * What one pass of the loop body leaves behind for an entry that raises
   * nothing: the item under the next key. The pass also re-saves the menu;
   * `SaveEntry` shows that write leaves the tables as they were.
   */
  function ItemStep(db: Db, order: nat, e: CartEntry): (r: Db)
    requires EntryError(db.menus, e).None?
    ensures r.items == db.items[db.nextItem := ItemFor(db.menus, e, order)] && r.nextItem == db.nextItem + 1
    ensures r == db.(items := r.items, nextItem := r.nextItem)
  {
    db.(items := db.items[db.nextItem := ItemFor(db.menus, e, order)], nextItem := db.nextItem + 1)
  }

  /** Saving the item of a passing entry for an existing order keeps the constraints. */
  lemma ItemStepKeepsValid(db: Db, order: nat, e: CartEntry, slugify: string -> string)
    requires DbValid(db, slugify) && order in db.orders
    requires EntryError(db.menus, e).None?
    ensures DbValid(ItemStep(db, order, e), slugify)
  {
  }

  /** The item loop over `entries`. */
  function SaveEntries(db: Db, order: nat, entries: seq<CartEntry>): (p: Progress)
    decreases |entries|
  {
    if entries == [] then Progress(db, 0, None)
    else match EntryError(db.menus, entries[0])
      case Some(err) => Progress(db, 0, Some(err))
      case None =>
        var rest := SaveEntries(ItemStep(db, order, entries[0]), order, entries[1..]);
        Progress(rest.db, rest.saved + 1, rest.error)
  }

  /** The loop run from entry `i` when that entry passes: one step, then the run from `i + 1`. */
  lemma SaveEntriesUnfold(db: Db, order: nat, entries: seq<CartEntry>, i: nat)
    requires i < |entries| && EntryError(db.menus, entries[i]).None?
    ensures var rest := SaveEntries(ItemStep(db, order, entries[i]), order, entries[i + 1..]);
      SaveEntries(db, order, entries[i..]) == Progress(rest.db, rest.saved + 1, rest.error)
  {
    assert entries[i..][0] == entries[i] && entries[i..][1..] == entries[i + 1..];
  }

  /** The loop touches only the item table and its sequence, and moves the sequence by `saved`. */
  lemma {:induction false} SaveEntriesFrame(db: Db, order: nat, entries: seq<CartEntry>)
    ensures var p := SaveEntries(db, order, entries);
      p.db == db.(items := p.db.items, nextItem := db.nextItem + p.saved)
    decreases |entries|
  {
    if entries != [] && EntryError(db.menus, entries[0]).None? {
      SaveEntriesFrame(ItemStep(db, order, entries[0]), order, entries[1..]);
    }
  }

  /** The loop keeps the schema's constraints. */
  lemma {:induction false} SaveEntriesKeepsValid(db: Db, order: nat, entries: seq<CartEntry>, slugify: string -> string)
    requires DbValid(db, slugify) && order in db.orders
    ensures DbValid(SaveEntries(db, order, entries).db, slugify)
    decreases |entries|
  {
    if entries != [] && EntryError(db.menus, entries[0]).None? {
      ItemStepKeepsValid(db, order, entries[0], slugify);
      SaveEntriesKeepsValid(ItemStep(db, order, entries[0]), order, entries[1..], slugify);
    }
  }

  /**
   * Where the loop stops: the entries before `saved` all pass, and the entry
   * at `saved` raises when the loop stops early.
   */
  lemma {:induction false} SaveEntriesStops(db: Db, order: nat, entries: seq<CartEntry>)
    ensures var p := SaveEntries(db, order, entries);
      && p.saved <= |entries|
      && (p.error.None? <==> p.saved == |entries|)
      && (forall i | 0 <= i < p.saved :: EntryError(db.menus, entries[i]).None?)
      && (p.error.Some? ==> p.error == EntryError(db.menus, entries[p.saved]))
    decreases |entries|
  {
    if entries != [] && EntryError(db.menus, entries[0]).None? {
      var next := ItemStep(db, order, entries[0]);
      SaveEntriesStops(next, order, entries[1..]);
      var p, rest := SaveEntries(db, order, entries), SaveEntries(next, order, entries[1..]);
      forall i | 0 <= i < p.saved
        ensures EntryError(db.menus, entries[i]).None?
      {
        if i > 0 {
          assert entries[i] == entries[1..][i - 1];
        }
      }
      if p.error.Some? {
        assert entries[p.saved] == entries[1..][rest.saved];
      }
    }
  }

  /** The item keys after the loop: the earlier rows as they were, and the next `saved` keys. */
  lemma {:induction false} SaveEntriesItemKeys(db: Db, order: nat, entries: seq<CartEntry>)
    requires KeysBelow(db.items, db.nextItem)
    ensures var p := SaveEntries(db, order, entries);
      && (forall k :: k in p.db.items <==> k in db.items || db.nextItem <= k < db.nextItem + p.saved)
      && (forall k | k in db.items :: p.db.items[k] == db.items[k])
    decreases |entries|
  {
    if entries != [] && EntryError(db.menus, entries[0]).None? {
      SaveEntriesItemKeys(ItemStep(db, order, entries[0]), order, entries[1..]);
    }
  }

  /**
   * The row the loop saves for its `i`-th entry: under the `i`-th next key,
   * built from that entry and the menu as it stood.
   */
  lemma {:induction false} SaveEntriesItemAt(db: Db, order: nat, entries: seq<CartEntry>, i: nat)
    requires KeysBelow(db.items, db.nextItem)
    requires i < SaveEntries(db, order, entries).saved
    ensures i < |entries| && EntryError(db.menus, entries[i]).None?
    ensures var p := SaveEntries(db, order, entries);
      db.nextItem + i in p.db.items && p.db.items[db.nextItem + i] == ItemFor(db.menus, entries[i], order)
    decreases |entries|
  {
    var next := ItemStep(db, order, entries[0]);
    if i == 0 {
      SaveEntriesItemKeys(next, order, entries[1..]);
    } else {
      SaveEntriesItemAt(next, order, entries[1..], i - 1);
      assert entries[1..][i - 1] == entries[i];
    }
  }

  /** The item loop never touches the order table. */
  lemma {:induction false} SaveEntriesKeepsOrders(db: Db, order: nat, entries: seq<CartEntry>)
    ensures SaveEntries(db, order, entries).db.orders == db.orders
    decreases |entries|
  {
    if entries != [] && EntryError(db.menus, entries[0]).None? {
      SaveEntriesKeepsOrders(ItemStep(db, order, entries[0]), order, entries[1..]);
    }
  }

  /** `order_serializer.save()`: the new order row under the next key. */
  function InsertOrder(db: Db, o: Order): (r: Db)
    ensures r.orders == db.orders[db.nextOrder := o] && r.nextOrder == db.nextOrder + 1
    ensures r == db.(orders := r.orders, nextOrder := r.nextOrder)
  {
    db.(orders := db.orders[db.nextOrder := o], nextOrder := db.nextOrder + 1)
  }

  /** The response once the item loop has stopped: the order with its items, or the exception. */
  function Finish(p: Progress, id: nat): (r: (Db, CheckoutOutcome))
    requires id in p.db.orders
    ensures r.0 == p.db
    ensures r.1.Aborted? <==> p.error.Some?
    ensures r.1.Created? <==> p.error.None?
    ensures r.1.Aborted? ==> r.1 == Aborted(id, p.saved, p.error.value)
    ensures r.1.Created? ==> r.1.detail == OrderDetailOf(p.db.orders, p.db.items, id)
  {
    if p.error.Some? then (p.db, Aborted(id, p.saved, p.error.value))
    else (p.db, Created(OrderDetailOf(p.db.orders, p.db.items, id)))
  }

  /** The whole request, from the tables before to the tables after and the response. */
  function CreateOrderSpec(db: Db, caller: nat, req: OrderRequest, userFieldAccepted: bool)
    : (r: (Db, CheckoutOutcome))
  {
    if EmptyCartGuard(req.orderItems) then (db, NoOrderItems)
    else if !OrderFieldsValid(req, userFieldAccepted) then (db, OrderInvalid)
    else
      var id := db.nextOrder;
      var withOrder := InsertOrder(db, NewOrder(caller, req.tax.value, req.totalPrice.value));
      if req.orderItems.None? then (withOrder, Aborted(id, 0, NotIterable))
      else
        SaveEntriesKeepsOrders(withOrder, id, req.orderItems.value);
        Finish(SaveEntries(withOrder, id, req.orderItems.value), id)
  }

  /** Saving the new order keeps the constraints. */
  lemma InsertOrderKeepsValid(db: Db, o: Order, slugify: string -> string)
    requires DbValid(db, slugify)
    ensures DbValid(InsertOrder(db, o), slugify)
  {
  }

  /** An accepted order with a cart: the response is what the item loop over the whole cart leads to. */
  lemma AcceptedCheckout(db: Db, caller: nat, req: OrderRequest, userFieldAccepted: bool)
    requires OrderFieldsValid(req, userFieldAccepted) && req.orderItems.Some?
    ensures var withOrder := InsertOrder(db, NewOrder(caller, req.tax.value, req.totalPrice.value));
      var p := SaveEntries(withOrder, db.nextOrder, req.orderItems.value);
      && withOrder.items == db.items && withOrder.nextItem == db.nextItem && withOrder.menus == db.menus
      && db.nextOrder in p.db.orders
      && CreateOrderSpec(db, caller, req, userFieldAccepted) == Finish(p, db.nextOrder)
  {
    EmptyCartGuardNeverFires(req.orderItems);
    var withOrder := InsertOrder(db, NewOrder(caller, req.tax.value, req.totalPrice.value));
    SaveEntriesKeepsOrders(withOrder, db.nextOrder, req.orderItems.value);
  }

  /**
   * The order row: a refused request changes nothing; an accepted one adds
   * exactly one order, owned by the caller and carrying the submitted totals,
   * whatever happens to the items, and never touches categories or menus.
   */
  lemma CheckoutSavesOneOrder(db: Db, caller: nat, req: OrderRequest, userFieldAccepted: bool)
    ensures var (db', out) := CreateOrderSpec(db, caller, req, userFieldAccepted);
      && (!OrderFieldsValid(req, userFieldAccepted) ==> db' == db && out == OrderInvalid)
      && (OrderFieldsValid(req, userFieldAccepted) ==>
            && db'.orders == db.orders[db.nextOrder := NewOrder(caller, req.tax.value, req.totalPrice.value)]
            && db'.nextOrder == db.nextOrder + 1
            && db'.categories == db.categories && db'.menus == db.menus
            && (out.Aborted? ==> out.order == db.nextOrder)
            && (out.Created? ==> out.detail.id == db.nextOrder && out.detail.user == caller
                                 && out.detail.order == NewOrder(caller, req.tax.value, req.totalPrice.value))
            && (out.Created? || out.Aborted?))
  {
    EmptyCartGuardNeverFires(req.orderItems);
    if OrderFieldsValid(req, userFieldAccepted) && req.orderItems.Some? {
      var withOrder := InsertOrder(db, NewOrder(caller, req.tax.value, req.totalPrice.value));
      SaveEntriesFrame(withOrder, db.nextOrder, req.orderItems.value);
    }
  }

  /** No stored item points at the order key the sequence hands out next. */
  lemma NoItemOfNextOrder(db: Db, slugify: string -> string)
    requires DbValid(db, slugify)
    ensures forall k | k in db.items :: db.items[k].order != db.nextOrder
  {
  }

  /** A checkout that answers with the order ran the item loop over the whole cart. */
  lemma CreatedRanWholeCart(db: Db, caller: nat, req: OrderRequest, userFieldAccepted: bool)
    ensures var (db', out) := CreateOrderSpec(db, caller, req, userFieldAccepted);
      out.Created? ==>
        && OrderFieldsValid(req, userFieldAccepted) && req.orderItems.Some?
        && var withOrder := InsertOrder(db, NewOrder(caller, req.tax.value, req.totalPrice.value));
           var p := SaveEntries(withOrder, db.nextOrder, req.orderItems.value);
           && p.error.None? && p.saved == |req.orderItems.value| && db' == p.db
           && db.nextOrder in p.db.orders
           && out.detail == OrderDetailOf(p.db.orders, p.db.items, db.nextOrder)
  {
    var (db', out) := CreateOrderSpec(db, caller, req, userFieldAccepted);
    EmptyCartGuardNeverFires(req.orderItems);
    if out.Created? {
      var withOrder := InsertOrder(db, NewOrder(caller, req.tax.value, req.totalPrice.value));
      SaveEntriesStops(withOrder, db.nextOrder, req.orderItems.value);
      SaveEntriesKeepsOrders(withOrder, db.nextOrder, req.orderItems.value);
    }
  }

  /**
   * A checkout that answers with the order holds exactly one item per cart
   * entry, under the next keys of the item sequence, and no other.
   */
  lemma CheckoutItemKeys(db: Db, caller: nat, req: OrderRequest, userFieldAccepted: bool,
                         slugify: string -> string)
    requires DbValid(db, slugify)
    ensures var (db', out) := CreateOrderSpec(db, caller, req, userFieldAccepted);
      out.Created? ==>
        && req.orderItems.Some?
        && (forall k :: k in out.detail.orderItems <==> db.nextItem <= k < db.nextItem + |req.orderItems.value|)
  {
    var (db', out) := CreateOrderSpec(db, caller, req, userFieldAccepted);
    CreatedRanWholeCart(db, caller, req, userFieldAccepted);
    if out.Created? {
      var entries, id := req.orderItems.value, db.nextOrder;
      var withOrder := InsertOrder(db, NewOrder(caller, req.tax.value, req.totalPrice.value));
      var p := SaveEntries(withOrder, id, entries);
      SaveEntriesItemKeys(withOrder, id, entries);
      NoItemOfNextOrder(db, slugify);
      forall k | db.nextItem <= k < db.nextItem + |entries|
        ensures k in out.detail.orderItems
      {
        SaveEntriesItemAt(withOrder, id, entries, k - db.nextItem);
      }
    }
  }

  /**
   * Each item of a checkout that answers with the order comes from its cart
   * entry, in cart order: the menu's name and image as they stood, the
   * entry's quantity and price.
   */
  lemma CheckoutItemsMatchCart(db: Db, caller: nat, req: OrderRequest, userFieldAccepted: bool,
                               slugify: string -> string)
    requires DbValid(db, slugify)
    ensures var (db', out) := CreateOrderSpec(db, caller, req, userFieldAccepted);
      out.Created? ==>
        && req.orderItems.Some?
        && (forall i | 0 <= i < |req.orderItems.value| ::
              && EntryError(db.menus, req.orderItems.value[i]).None?
              && db.nextItem + i in out.detail.orderItems
              && out.detail.orderItems[db.nextItem + i]
                   == ItemFor(db.menus, req.orderItems.value[i], db.nextOrder))
  {
    var (db', out) := CreateOrderSpec(db, caller, req, userFieldAccepted);
    CreatedRanWholeCart(db, caller, req, userFieldAccepted);
    if out.Created? {
      var entries, id := req.orderItems.value, db.nextOrder;
      var withOrder := InsertOrder(db, NewOrder(caller, req.tax.value, req.totalPrice.value));
      var p := SaveEntries(withOrder, id, entries);
      assert p.saved == |entries| && out.detail == OrderDetailOf(p.db.orders, p.db.items, id);
      forall i | 0 <= i < |entries|
        ensures && EntryError(db.menus, entries[i]).None?
                && db.nextItem + i in out.detail.orderItems
                && out.detail.orderItems[db.nextItem + i] == ItemFor(db.menus, entries[i], id)
      {
        SaveEntriesItemAt(withOrder, id, entries, i);
        assert p.db.items[db.nextItem + i].order == id;
      }
    }
  }

  /** Whatever the outcome, the items stored before the checkout stay as they were. */
  lemma CheckoutKeepsOldItems(db: Db, caller: nat, req: OrderRequest, userFieldAccepted: bool,
                              slugify: string -> string)
    requires DbValid(db, slugify)
    ensures var (db', out) := CreateOrderSpec(db, caller, req, userFieldAccepted);
      forall k | k in db.items :: k in db'.items && db'.items[k] == db.items[k]
  {
    EmptyCartGuardNeverFires(req.orderItems);
    if OrderFieldsValid(req, userFieldAccepted) && req.orderItems.Some? {
      AcceptedCheckout(db, caller, req, userFieldAccepted);
      var withOrder := InsertOrder(db, NewOrder(caller, req.tax.value, req.totalPrice.value));
      SaveEntriesItemKeys(withOrder, db.nextOrder, req.orderItems.value);
    }
  }

  /** After an exception in the item loop the saved order holds exactly the next `saved` item keys. */
  lemma AbortedCheckoutOrderItems(db: Db, caller: nat, req: OrderRequest, userFieldAccepted: bool,
                                  slugify: string -> string)
    requires DbValid(db, slugify)
    ensures var (db', out) := CreateOrderSpec(db, caller, req, userFieldAccepted);
      out.Aborted? ==>
        forall k :: k in OrderItemsOf(db'.items, out.order) <==> db.nextItem <= k < db.nextItem + out.saved
  {
    var (db', out) := CreateOrderSpec(db, caller, req, userFieldAccepted);
    EmptyCartGuardNeverFires(req.orderItems);
    NoItemOfNextOrder(db, slugify);
    if out.Aborted? && req.orderItems.Some? {
      var entries, id := req.orderItems.value, db.nextOrder;
      AcceptedCheckout(db, caller, req, userFieldAccepted);
      var withOrder := InsertOrder(db, NewOrder(caller, req.tax.value, req.totalPrice.value));
      var p := SaveEntries(withOrder, id, entries);
      assert db' == p.db && out == Aborted(id, p.saved, p.error.value);
      SaveEntriesItemKeys(withOrder, id, entries);
      forall k
        ensures k in OrderItemsOf(db'.items, id) <==> db.nextItem <= k < db.nextItem + p.saved
      {
        if db.nextItem <= k < db.nextItem + p.saved {
          SaveEntriesItemAt(withOrder, id, entries, k - db.nextItem);
          assert k in db'.items && db'.items[k].order == id;
        } else if k in db.items {
          assert db'.items[k] == db.items[k];
        } else {
          assert k !in db'.items;
        }
      }
    } else if out.Aborted? {
      assert db'.items == db.items;
    }
  }

  /**
   * After an exception in the item loop, each item the saved order holds was
   * built from its entry and the menu as it stood.
   */
  lemma AbortedCheckoutItemsMatchCart(db: Db, caller: nat, req: OrderRequest, userFieldAccepted: bool,
                                      slugify: string -> string)
    requires DbValid(db, slugify)
    ensures var (db', out) := CreateOrderSpec(db, caller, req, userFieldAccepted);
      out.Aborted? && req.orderItems.Some? ==>
        && out.saved <= |req.orderItems.value|
        && forall i | 0 <= i < out.saved ::
             && EntryError(db.menus, req.orderItems.value[i]).None?
             && db.nextItem + i in db'.items
             && db'.items[db.nextItem + i] == ItemFor(db.menus, req.orderItems.value[i], out.order)
  {
    var (db', out) := CreateOrderSpec(db, caller, req, userFieldAccepted);
    EmptyCartGuardNeverFires(req.orderItems);
    if out.Aborted? && req.orderItems.Some? {
      var entries, id := req.orderItems.value, db.nextOrder;
      AcceptedCheckout(db, caller, req, userFieldAccepted);
      var withOrder := InsertOrder(db, NewOrder(caller, req.tax.value, req.totalPrice.value));
      var p := SaveEntries(withOrder, id, entries);
      assert db' == p.db && out == Aborted(id, p.saved, p.error.value);
      assert out.saved == p.saved && out.order == id;
      SaveEntriesStops(withOrder, id, entries);
      forall i | 0 <= i < p.saved
        ensures && EntryError(db.menus, entries[i]).None?
                && db.nextItem + i in db'.items
                && db'.items[db.nextItem + i] == ItemFor(db.menus, entries[i], id)
      {
        SaveEntriesItemAt(withOrder, id, entries, i);
      }
    }
  }

  /**
   * With no transaction around the checkout, an exception in the item loop
   * leaves the order saved with the items of the entries before the one
   * that raised, and nothing else.
   */
  lemma AbortedCheckoutKeepsPartialOrder(db: Db, caller: nat, req: OrderRequest, userFieldAccepted: bool,
                                         slugify: string -> string)
    requires DbValid(db, slugify)
    ensures var (db', out) := CreateOrderSpec(db, caller, req, userFieldAccepted);
      out.Aborted? ==>
        && out.order in db'.orders && out.order !in db.orders
        && (req.orderItems.None? ==> out.saved == 0 && out.error == NotIterable && db'.items == db.items)
        && (req.orderItems.Some? ==>
              && out.saved < |req.orderItems.value|
              && EntryError(db.menus, req.orderItems.value[out.saved]) == Some(out.error)
              && (forall i | 0 <= i < out.saved :: EntryError(db.menus, req.orderItems.value[i]).None?)
              && (forall k :: k in db'.items <==> k in db.items || db.nextItem <= k < db.nextItem + out.saved))
  {
    var (db', out) := CreateOrderSpec(db, caller, req, userFieldAccepted);
    EmptyCartGuardNeverFires(req.orderItems);
    if out.Aborted? && req.orderItems.Some? {
      var entries, id := req.orderItems.value, db.nextOrder;
      var withOrder := InsertOrder(db, NewOrder(caller, req.tax.value, req.totalPrice.value));
      SaveEntriesStops(withOrder, id, entries);
      SaveEntriesItemKeys(withOrder, id, entries);
      SaveEntriesKeepsOrders(withOrder, id, entries);
    }
  }

  /** As written, an empty cart is accepted: the order is saved with no items. */
  lemma EmptyCartCreatesEmptyOrder(db: Db, caller: nat, req: OrderRequest, userFieldAccepted: bool,
                                   slugify: string -> string)
    requires DbValid(db, slugify)
    requires req.orderItems == Some([]) && OrderFieldsValid(req, userFieldAccepted)
    ensures var (db', out) := CreateOrderSpec(db, caller, req, userFieldAccepted);
      out.Created? && out.detail.orderItems == map[] && db'.orders == db.orders[db.nextOrder := out.detail.order]
  {
    CheckoutItemKeys(db, caller, req, userFieldAccepted, slugify);
    CheckoutSavesOneOrder(db, caller, req, userFieldAccepted);
  }

  /** The guard the 400 "No Order Items" response evidently means: no cart, or an empty one. */
  function IntendedCartGuard(orderItems: Option<seq<CartEntry>>): (fires: bool)
    ensures fires <==> orderItems.None? || |orderItems.value| == 0
  {
    !(orderItems.Some? && |orderItems.value| != 0)
  }

  /** The checkout with the intended guard; past the guard it is the checkout as written. */
  function IntendedCreateOrderSpec(db: Db, caller: nat, req: OrderRequest, userFieldAccepted: bool)
    : (r: (Db, CheckoutOutcome))
  {
    if IntendedCartGuard(req.orderItems) then (db, NoOrderItems)
    else CreateOrderSpec(db, caller, req, userFieldAccepted)
  }

  /**
   * With the intended guard, a missing or empty cart is refused before
   * anything is saved, the loop never meets a missing cart, and every order
   * the checkout answers with holds at least one item.
   */
  lemma IntendedCheckoutNeedsItems(db: Db, caller: nat, req: OrderRequest, userFieldAccepted: bool,
                                   slugify: string -> string)
    requires DbValid(db, slugify)
    ensures var (db', out) := IntendedCreateOrderSpec(db, caller, req, userFieldAccepted);
      && (out == NoOrderItems <==> req.orderItems.None? || req.orderItems.value == [])
      && (out == NoOrderItems ==> db' == db)
      && (out.Aborted? ==> out.error != NotIterable)
      && (out.Created? ==> db.nextItem in out.detail.orderItems)
  {
    if !IntendedCartGuard(req.orderItems) {
      CheckoutItemKeys(db, caller, req, userFieldAccepted, slugify);
      AbortedCheckoutKeepsPartialOrder(db, caller, req, userFieldAccepted, slugify);
      EmptyCartGuardNeverFires(req.orderItems);
    }
  }

  /** One pass of the loop body for an entry that raises nothing: `item.save()`, then `menu.save()`. */
  method SaveEntry(store: Store, order: nat, e: CartEntry)
    requires store.Valid() && order in store.orders
    requires EntryError(store.menus, e).None?
    modifies store
    ensures store.Valid()
    ensures store.Snapshot() == ItemStep(old(store.Snapshot()), order, e)
  {
    var menuId := e.menu.value;
    var menu := store.menus[menuId];
    var item := ItemFor(store.menus, e, order);
    ghost var before := store.Snapshot();
    ItemStepKeepsValid(before, order, e, store.slugify);
    store.items, store.nextItem := store.items[store.nextItem := item], store.nextItem + 1;
    assert store.Snapshot() == ItemStep(before, order, e);
    // the menu row goes back unchanged
    ResaveMenuChangesNothing(store.Snapshot(), menuId, store.slugify);
    var _, _ := store.SaveMenu(Some(menuId), menu);
  }

  /** The item loop of the checkout on the tables of a running server. */
  method SaveCartItems(store: Store, order: nat, entries: seq<CartEntry>) returns (saved: nat, error: Option<ItemError>)
    requires store.Valid() && order in store.orders
    modifies store
    ensures store.Valid()
    ensures Progress(store.Snapshot(), saved, error) == SaveEntries(old(store.Snapshot()), order, entries)
  {
    ghost var full := SaveEntries(store.Snapshot(), order, entries);
    var i := 0;
    while i < |entries|
      invariant 0 <= i <= |entries|
      invariant store.Valid() && order in store.orders
      invariant var rest := SaveEntries(store.Snapshot(), order, entries[i..]);
        full == Progress(rest.db, i + rest.saved, rest.error)
    {
      var e := entries[i];
      // the lookups and conversions of the loop body, in the order they run
      var failure := EntryError(store.menus, e);
      if failure.Some? {
        assert entries[i..][0] == e;
        return i, failure;
      }
      ghost var before := store.Snapshot();
      SaveEntry(store, order, e);
      SaveEntriesUnfold(before, order, entries, i);
      i := i + 1;
    }
    assert entries[i..] == [];
    return i, None;
  }

  /** `OrderListCreateView.post` on the tables of a running server. */
  method CreateOrder(store: Store, caller: nat, req: OrderRequest, userFieldAccepted: bool)
    returns (out: CheckoutOutcome)
    requires store.Valid()
    modifies store
    ensures store.Valid()
    ensures (store.Snapshot(), out) == CreateOrderSpec(old(store.Snapshot()), caller, req, userFieldAccepted)
  {
    var orderItems := req.orderItems;
    if EmptyCartGuard(orderItems) {
      return NoOrderItems;
    }
    if !OrderFieldsValid(req, userFieldAccepted) {
      return OrderInvalid;
    }
    var order := store.nextOrder;
    ghost var withOrder := InsertOrder(store.Snapshot(), NewOrder(caller, req.tax.value, req.totalPrice.value));
    InsertOrderKeepsValid(store.Snapshot(), NewOrder(caller, req.tax.value, req.totalPrice.value), store.slugify);
    store.orders := store.orders[order := NewOrder(caller, req.tax.value, req.totalPrice.value)];
    store.nextOrder := order + 1;
    assert store.Snapshot() == withOrder;
    if orderItems.None? {
      return Aborted(order, 0, NotIterable);
    }
    SaveEntriesKeepsOrders(withOrder, order, orderItems.value);
    var saved, error := SaveCartItems(store, order, orderItems.value);
    ghost var p := SaveEntries(withOrder, order, orderItems.value);
    assert p == Progress(store.Snapshot(), saved, error);
    if error.Some? {
      return Aborted(order, saved, error.value);
    }
    return Created(OrderDetailOf(store.orders, store.items, order));
  }
}

=== FILE: core_models.dfy ===
/**
 * The rows of the core app (categories, menus, campaigns, orders, order items,
 * reservations, reviews) with their field defaults, validators and the slug
 * defaulting that Category.save and Menu.save perform.
 */
module CoreModels {
  import opened Wrappers
  import JsonInt

  /** Money amounts in cents; the source keeps floats and only copies them. */
  type Price = int

  /** Every row of the BaseModel family starts out active. */
  const DefaultIsActive := true

  datatype Category = Category(name: string, slug: string, isActive: bool)

  datatype Menu = Menu(
    category: Option<nat>,
    name: string,
    slug: string,
    image: string,
    price: Price,
    offerPrice: Price,
    cookTime: int,
    isActive: bool)

  datatype Campaign = Campaign(title: string, image: string, isActive: bool)

  datatype Order = Order(
    user: nat,
    totalPrice: Price,
    tax: Price,
    isPaid: bool,
    isServed: bool,
    isActive: bool)

  /**
   * An order item snapshots the menu's name and image; the menu reference is
   * nullable (it is set to null when the menu is deleted).
   */
  datatype OrderItem = OrderItem(
    menu: Option<nat>,
    order: nat,
    name: string,
    quantity: int,
    price: Price,
    image: string,
    isActive: bool)

  datatype Review = Review(menu: nat, user: nat, rating: nat, comment: string, isActive: bool)

  datatype ReservationStatus = Pending | Confirmed | Cancelled

  datatype Reservation = Reservation(
    user: nat,
    name: string,
    time: string,
    person: int,
    status: ReservationStatus,
    isActive: bool)

  /** The validated fields of reservations and reviews. */
  datatype Field = NameField | TimeField | PersonField | StatusField | ActiveField | RatingField

  /** A field validation failure, as the serializer's fields and Django's validators report it. */
  datatype FieldError =
    | Required(field: Field)
    | Blank(field: Field)
    | TooLong(field: Field, limit: int)
    | NullCharacters(field: Field)
    | AboveMax(field: Field, limit: int)
    | BelowMin(field: Field, limit: int)
    | InvalidChoice(field: Field, value: string)
    | NotNull(field: Field)
    | NotBoolean(field: Field)

  // ----- slug defaulting (Category.save, Menu.save) -----

  /** `if not self.slug: self.slug = slugify(self.name)` */
  function DefaultSlug(slug: string, name: string, slugify: string -> string): (r: string)
    ensures slug != "" ==> r == slug
    ensures slug == "" ==> r == slugify(name)
  {
    if slug == "" then slugify(name) else slug
  }

  /** Defaulting twice gives the slug that defaulting once gives. */
  lemma DefaultSlugIdempotent(slug: string, name: string, slugify: string -> string)
    ensures DefaultSlug(DefaultSlug(slug, name, slugify), name, slugify) == DefaultSlug(slug, name, slugify)
  {
  }

  /** Category.save changes the slug and nothing else. */
  function SavedCategory(c: Category, slugify: string -> string): (r: Category)
    ensures r.name == c.name && r.isActive == c.isActive
    ensures c.slug != "" ==> r == c
    ensures c.slug == "" ==> r.slug == slugify(c.name)
  {
    c.(slug := DefaultSlug(c.slug, c.name, slugify))
  }

  /** Menu.save changes the slug and nothing else. */
  function SavedMenu(m: Menu, slugify: string -> string): (r: Menu)
    ensures r.(slug := m.slug) == m
    ensures m.slug != "" ==> r == m
    ensures m.slug == "" ==> r.slug == slugify(m.name)
  {
    m.(slug := DefaultSlug(m.slug, m.name, slugify))
  }

  /** A row that a save leaves as it is: what every saved row satisfies. */
  predicate CategorySettled(c: Category, slugify: string -> string)
  {
    SavedCategory(c, slugify) == c
  }

  predicate MenuSettled(m: Menu, slugify: string -> string)
  {
    SavedMenu(m, slugify) == m
  }

  lemma {:induction false} SavedRowsAreSettled(c: Category, m: Menu, slugify: string -> string)
    ensures CategorySettled(SavedCategory(c, slugify), slugify)
    ensures MenuSettled(SavedMenu(m, slugify), slugify)
  {
    DefaultSlugIdempotent(c.slug, c.name, slugify);
    DefaultSlugIdempotent(m.slug, m.name, slugify);
  }

  // ----- orders -----

  /** A new order: not paid, not served, active. */
  function NewOrder(user: nat, tax: Price, totalPrice: Price): (o: Order)
    ensures !o.isPaid && !o.isServed && o.isActive
    ensures o.user == user && o.tax == tax && o.totalPrice == totalPrice
  {
    Order(user, totalPrice, tax, false, false, DefaultIsActive)
  }

  // ----- reservations -----

  const DefaultPerson := 2
  const MaxPerson := 12
  /** The range of an IntegerField column. */
  const IntegerFieldMin := -0x8000_0000
  const IntegerFieldMax := 0x7FFF_FFFF

  /** The stored text of each status choice. */
  function StatusValue(s: ReservationStatus): (v: string)
    ensures |v| <= 10
  {
    match s
    case Pending => "pending"
    case Confirmed => "confirmed"
    case Cancelled => "cancelled"
  }

  /** The choices check on the status column. */
  function ParseStatus(v: string): (r: Option<ReservationStatus>)
    ensures r.Some? ==> StatusValue(r.value) == v
  {
    if v == "pending" then Some(Pending)
    else if v == "confirmed" then Some(Confirmed)
    else if v == "cancelled" then Some(Cancelled)
    else None
  }

  /** Exactly the three stored texts are accepted, each as its own status. */
  lemma StatusRoundTrip(s: ReservationStatus, v: string)
    ensures ParseStatus(StatusValue(s)) == Some(s)
    ensures ParseStatus(v).Some? <==> v in {"pending", "confirmed", "cancelled"}
  {
  }

  /** The maximum length of the `name` and `time` columns. */
  const MaxTextLength := 100

  /** The characters Python's `str.strip()` removes. */
  predicate IsSpace(c: char)
  {
    || '\t' <= c <= '\r' || '\U{1C}' <= c <= '\U{1F}' || c == ' ' || c == '\U{85}' || c == '\U{A0}'
    || c == '\U{1680}' || '\U{2000}' <= c <= '\U{200A}' || c == '\U{2028}' || c == '\U{2029}' || c == '\U{202F}'
    || c == '\U{205F}' || c == '\U{3000}'
  }

  /** The number of whitespace characters `s` starts with. */
  function LeadingSpaces(s: string): (n: nat)
    ensures n <= |s|
    ensures forall j | 0 <= j < n :: IsSpace(s[j])
    ensures n < |s| ==> !IsSpace(s[n])
  {
    if |s| > 0 && IsSpace(s[0]) then LeadingSpaces(s[1..]) + 1 else 0
  }

  /** Where the whitespace `s` ends with begins. */
  function TrailingStart(s: string): (n: nat)
    ensures n <= |s|
    ensures forall j | n <= j < |s| :: IsSpace(s[j])
    ensures 0 < n ==> !IsSpace(s[n - 1])
  {
    if |s| > 0 && IsSpace(s[|s| - 1]) then TrailingStart(s[..|s| - 1]) else |s|
  }

  /**
   * `str.strip()`: the text without its leading and trailing whitespace. It
   * is empty exactly when the text is all whitespace, and a text with no
   * whitespace at either end is kept.
   */
  function Strip(s: string): (r: string)
    ensures |r| <= |s|
    ensures r == [] <==> forall j | 0 <= j < |s| :: IsSpace(s[j])
    ensures r != [] ==> !IsSpace(r[0]) && !IsSpace(r[|r| - 1])
    ensures |s| > 0 && !IsSpace(s[0]) && !IsSpace(s[|s| - 1]) ==> r == s
    ensures r != [] ==> && LeadingSpaces(s) + |r| <= |s|
                        && r == s[LeadingSpaces(s)..LeadingSpaces(s) + |r|]
                        && forall j | LeadingSpaces(s) + |r| <= j < |s| :: IsSpace(s[j])
  {
    var lo, hi := LeadingSpaces(s), TrailingStart(s);
    if hi <= lo then [] else s[lo..hi]
  }

  /**
   * A required `CharField(max_length=100)` without `blank=True`, as the
   * serializer cleans it: whitespace is stripped, a blank text is refused,
   * and the stripped text must fit the column and hold no null character.
   */
  function CleanText(field: Field, value: Option<string>): (r: Result<string, FieldError>)
    ensures r.Ok? <==> && value.Some? && Strip(value.value) != [] && |Strip(value.value)| <= MaxTextLength
                       && '\0' !in Strip(value.value)
    ensures r.Ok? ==> r.value == Strip(value.value)
    ensures r.Err? ==> r.error.field == field
  {
    match value
    case None => Err(Required(field))
    case Some(v) =>
      var t := Strip(v);
      if t == [] then Err(Blank(field))
      else if |t| > MaxTextLength then Err(TooLong(field, MaxTextLength))
      else if '\0' in t then Err(NullCharacters(field))
      else Ok(t)
  }

  /**
   * The `person` field: the IntegerField range and MaxValueValidator(12). The
   * validator's bound of 12 takes the place of the column's upper bound, so
   * it is the one reported for every value above 12. There is no lower bound
   * of 1.
   */
  function CleanPerson(person: Option<int>): (r: Result<int, FieldError>)
    ensures person.None? ==> r == Ok(DefaultPerson)
    ensures person.Some? ==> (r.Ok? <==> IntegerFieldMin <= person.value <= MaxPerson)
    ensures r.Ok? ==> r.value <= MaxPerson && (person.Some? ==> r.value == person.value)
    ensures r.Err? ==> r.error.field == PersonField
    ensures person.Some? && person.value > MaxPerson ==> r == Err(AboveMax(PersonField, MaxPerson))
  {
    match person
    case None => Ok(DefaultPerson)
    case Some(p) =>
      if p > MaxPerson then Err(AboveMax(PersonField, MaxPerson))
      else if p < IntegerFieldMin then Err(BelowMin(PersonField, IntegerFieldMin))
      else Ok(p)
  }

  /** The required `status` choice field. */
  function CleanStatus(status: Option<string>): (r: Result<ReservationStatus, FieldError>)
    ensures r.Ok? <==> status.Some? && ParseStatus(status.value).Some?
    ensures r.Ok? ==> StatusValue(r.value) == status.value
    ensures r.Err? ==> r.error.field == StatusField
  {
    match status
    case None => Err(Required(StatusField))
    case Some(v) => if ParseStatus(v).Some? then Ok(ParseStatus(v).value) else Err(InvalidChoice(StatusField, v))
  }

  /** The texts DRF's `BooleanField` reads as true. */
  const TrueTexts: set<string> := {"t", "T", "y", "Y", "yes", "Yes", "YES", "true", "True", "TRUE", "on", "On", "ON", "1"}

  /** The texts DRF's `BooleanField` reads as false. */
  const FalseTexts: set<string> := {"f", "F", "n", "N", "no", "No", "NO", "false", "False", "FALSE", "off", "Off", "OFF", "0"}

  /**
   * The optional, non-null `is_active` field that `fields = "__all__"`
   * exposes: an absent value keeps the column default; a boolean, the
   * numbers 0 and 1 (which Python's set lookup equates with the booleans,
   * floats included) and the listed texts are read; null and anything else
   * are refused.
   */
  function CleanActive(v: Option<JsonInt.JsonValue>): (r: Result<bool, FieldError>)
    ensures v.None? ==> r == Ok(DefaultIsActive)
    ensures v.Some? && v.value.JBool? ==> r == Ok(v.value.b)
    ensures v.Some? && v.value.JInt? ==> (r.Ok? <==> v.value.n in {0, 1}) && (r.Ok? ==> r.value == (v.value.n == 1))
    ensures v.Some? && v.value.JFloat? ==> && (r.Ok? <==> v.value.f.Finite? && v.value.f.x in {0.0, 1.0})
                                           && (r.Ok? ==> r.value == (v.value.f.x == 1.0))
    ensures v.Some? && v.value.JString? ==> && (r.Ok? <==> v.value.s in TrueTexts + FalseTexts)
                                            && (r.Ok? ==> r.value == (v.value.s in TrueTexts))
    ensures v.Some? && (v.value.JNull? || v.value.JContainer?) ==> r.Err?
    ensures r.Err? ==> r.error.field == ActiveField && (r.error.NotNull? <==> v == Some(JsonInt.JNull))
  {
    match v
    case None => Ok(DefaultIsActive)
    case Some(JNull) => Err(NotNull(ActiveField))
    case Some(JBool(b)) => Ok(b)
    case Some(JInt(n)) => if n == 1 then Ok(true) else if n == 0 then Ok(false) else Err(NotBoolean(ActiveField))
    case Some(JFloat(f)) =>
      if f == JsonInt.Finite(1.0) then Ok(true)
      else if f == JsonInt.Finite(0.0) then Ok(false)
      else Err(NotBoolean(ActiveField))
    case Some(JString(t)) =>
      if t in TrueTexts then Ok(true) else if t in FalseTexts then Ok(false) else Err(NotBoolean(ActiveField))
    case Some(JContainer) => Err(NotBoolean(ActiveField))
  }

  /** No text is read both ways, so the reading of a text is well defined. */
  lemma BooleanTextsDisjoint()
    ensures TrueTexts * FalseTexts == {}
  {
  }

  /** The errors of a rejected reservation, keyed by field as the serializer's `errors` are. */
  function ReservationErrors(n: Result<string, FieldError>, t: Result<string, FieldError>,
                             p: Result<int, FieldError>, s: Result<ReservationStatus, FieldError>,
                             a: Result<bool, FieldError>)
    : (errors: map<Field, FieldError>)
    ensures Reports(errors, NameField, n) && Reports(errors, TimeField, t)
    ensures Reports(errors, PersonField, p) && Reports(errors, StatusField, s)
    ensures Reports(errors, ActiveField, a)
    ensures RatingField !in errors
  {
    var withName := if n.Err? then map[NameField := n.error] else map[];
    var withTime := if t.Err? then withName[TimeField := t.error] else withName;
    var withPerson := if p.Err? then withTime[PersonField := p.error] else withTime;
    var withStatus := if s.Err? then withPerson[StatusField := s.error] else withPerson;
    if a.Err? then withStatus[ActiveField := a.error] else withStatus
  }

  /** `errors` holds an entry for `field` exactly when its cleaning `c` failed, and then `c`'s error. */
  predicate Reports<T>(errors: map<Field, FieldError>, field: Field, c: Result<T, FieldError>)
  {
    && (field in errors <==> c.Err?)
    && (c.Err? ==> errors[field] == c.error)
  }

  /**
   * `ResarvationSerializer` validating a reservation: accepted exactly when
   * every field passes, with the cleaned values; a rejection reports each
   * failing field's error, and nothing about a field that passed.
   */
  function CleanReservation(user: nat, name: Option<string>, time: Option<string>, person: Option<int>,
                            status: Option<string>, isActive: Option<JsonInt.JsonValue>)
    : (r: Result<Reservation, map<Field, FieldError>>)
    ensures r.Ok? <==> && CleanText(NameField, name).Ok? && CleanText(TimeField, time).Ok?
                       && CleanPerson(person).Ok? && CleanStatus(status).Ok? && CleanActive(isActive).Ok?
    ensures r.Ok? ==> && r.value.person == CleanPerson(person).value && r.value.person <= MaxPerson
                      && StatusValue(r.value.status) == status.value
                      && r.value.name == Strip(name.value) && r.value.time == Strip(time.value)
                      && 0 < |r.value.name| <= MaxTextLength && 0 < |r.value.time| <= MaxTextLength
                      && r.value.isActive == CleanActive(isActive).value && r.value.user == user
    ensures r.Ok? && isActive.None? ==> r.value.isActive == DefaultIsActive
    ensures r.Err? ==> && Reports(r.error, NameField, CleanText(NameField, name))
                       && Reports(r.error, TimeField, CleanText(TimeField, time))
                       && Reports(r.error, PersonField, CleanPerson(person))
                       && Reports(r.error, StatusField, CleanStatus(status))
                       && Reports(r.error, ActiveField, CleanActive(isActive))
                       && RatingField !in r.error && r.error != map[]
  {
    var n, t, p, s := CleanText(NameField, name), CleanText(TimeField, time), CleanPerson(person), CleanStatus(status);
    var a := CleanActive(isActive);
    if n.Ok? && t.Ok? && p.Ok? && s.Ok? && a.Ok? then
      Ok(Reservation(user, n.value, t.value, p.value, s.value, a.value))
    else Err(ReservationErrors(n, t, p, s, a))
  }

  // ----- reviews -----

  const MaxRating := 5

  /** A PositiveSmallIntegerField bounded by 5: the ratings 0 to 5. */
  function CleanRating(rating: int): (r: Result<nat, FieldError>)
    ensures r.Ok? <==> 0 <= rating <= MaxRating
    ensures r.Ok? ==> r.value == rating
  {
    if rating < 0 then Err(BelowMin(RatingField, 0))
    else if rating > MaxRating then Err(AboveMax(RatingField, MaxRating))
    else Ok(rating)
  }
}

=== FILE: core_serializers.dfy ===
/**
 * The serializers of the core app that hold logic: the purchase gate on new
 * reviews and the nested projection of an order's detail.
 */
module CoreSerializers {
  import opened Wrappers
  import opened CoreModels

  /** The fields a review is created from. */
  datatype ReviewInput = ReviewInput(menu: nat, rating: nat, comment: string)

  const MustOrderMessage := "You must order this menu to review."

  /** Item `k` is an item of `menu` in a paid and served order of `user`. */
  predicate ServedPurchase(orders: map<nat, Order>, items: map<nat, OrderItem>, k: nat, user: nat, menu: nat)
    requires k in items
  {
    var item := items[k];
    && item.menu == Some(menu)
    && item.order in orders
    && orders[item.order].user == user
    && orders[item.order].isPaid
    && orders[item.order].isServed
  }

  /** The rows of the gate's queryset: `OrderItem.objects.filter(menu=..., order__user=..., order__is_paid=True, order__is_served=True)`. */
  function PurchaseRows(orders: map<nat, Order>, items: map<nat, OrderItem>, user: nat, menu: nat): (r: set<nat>)
    ensures forall k :: k in r ==> k in items && items[k].menu == Some(menu)
    ensures forall k :: k in r ==> items[k].order in orders && orders[items[k].order].user == user
    ensures forall k :: k in r ==> orders[items[k].order].isPaid && orders[items[k].order].isServed
  {
    set k | k in items && ServedPurchase(orders, items, k, user, menu)
  }

  /** The promise the gate makes, stated on the tables directly. */
  ghost predicate HasServedPurchase(orders: map<nat, Order>, items: map<nat, OrderItem>, user: nat, menu: nat)
  {
    exists k, o :: k in items && o in orders && items[k].order == o && items[k].menu == Some(menu)
      && orders[o].user == user && orders[o].isPaid && orders[o].isServed
  }

  /** The queryset is non-empty exactly when the promise holds. */
  lemma {:induction false} PurchaseRowsMatchPromise(orders: map<nat, Order>, items: map<nat, OrderItem>, user: nat, menu: nat)
    ensures PurchaseRows(orders, items, user, menu) != {} <==> HasServedPurchase(orders, items, user, menu)
  {
    if HasServedPurchase(orders, items, user, menu) {
      var k, o :| k in items && o in orders && items[k].order == o && items[k].menu == Some(menu)
        && orders[o].user == user && orders[o].isPaid && orders[o].isServed;
      assert k in PurchaseRows(orders, items, user, menu);
    }
    if PurchaseRows(orders, items, user, menu) != {} {
      var k :| k in PurchaseRows(orders, items, user, menu);
      assert items[k].order in orders;
    }
  }

  /**
   * `ReviewCreateSerializer.validate`: the input unchanged when the user has a
   * paid and served order of the menu, the gate's message otherwise.
   */
  function ValidateReview(data: ReviewInput, user: nat, orders: map<nat, Order>, items: map<nat, OrderItem>)
    : (r: Result<ReviewInput, string>)
    ensures r.Ok? <==> HasServedPurchase(orders, items, user, data.menu)
    ensures r.Ok? ==> r.value == data
    ensures r.Err? ==> r.error == MustOrderMessage
  {
    PurchaseRowsMatchPromise(orders, items, user, data.menu);
    if PurchaseRows(orders, items, user, data.menu) == {} then Err(MustOrderMessage) else Ok(data)
  }

  /** Table `small` is contained in table `big`: every row of it is there unchanged. */
  ghost predicate Submap<T>(small: map<nat, T>, big: map<nat, T>)
  {
    forall k :: k in small ==> k in big && big[k] == small[k]
  }

  /** Adding orders and items can only turn a rejection into an acceptance. */
  lemma {:induction false} GateIsMonotone(data: ReviewInput, user: nat,
                         orders: map<nat, Order>, items: map<nat, OrderItem>,
                         orders': map<nat, Order>, items': map<nat, OrderItem>)
    requires Submap(orders, orders') && Submap(items, items')
    requires ValidateReview(data, user, orders, items).Ok?
    ensures ValidateReview(data, user, orders', items').Ok?
  {
    var k, o :| k in items && o in orders && items[k].order == o && items[k].menu == Some(data.menu)
      && orders[o].user == user && orders[o].isPaid && orders[o].isServed;
    assert k in items' && o in orders' && items'[k] == items[k] && orders'[o] == orders[o];
  }

  /**
   * An item of an order that is unpaid, unserved or someone else's never lets
   * the gate through: adding such an item changes no verdict.
   */
  lemma {:induction false} OtherItemsDoNotCount(data: ReviewInput, user: nat,
                               orders: map<nat, Order>, items: map<nat, OrderItem>, k: nat, item: OrderItem)
    requires item.order in orders
    requires !orders[item.order].isPaid || !orders[item.order].isServed
             || orders[item.order].user != user || item.menu != Some(data.menu)
    ensures ValidateReview(data, user, orders, items[k := item]).Ok?
            ==> ValidateReview(data, user, orders, items - {k}).Ok?
  {
    var items' := items[k := item];
    if HasServedPurchase(orders, items', user, data.menu) {
      var j, o :| j in items' && o in orders && items'[j].order == o && items'[j].menu == Some(data.menu)
        && orders[o].user == user && orders[o].isPaid && orders[o].isServed;
      assert j != k;
      assert j in items - {k} && (items - {k})[j] == items'[j];
    }
  }

  /**
   * The gate reads neither the rating nor the comment, nor any existing review:
   * two inputs for the same menu get the same verdict, so a repeat review of a
   * menu passes whenever the first one did.
   */
  lemma {:induction false} GateIgnoresRatingAndComment(a: ReviewInput, b: ReviewInput, user: nat,
                                      orders: map<nat, Order>, items: map<nat, OrderItem>)
    requires a.menu == b.menu
    ensures ValidateReview(a, user, orders, items).Ok? == ValidateReview(b, user, orders, items).Ok?
  {
    assert PurchaseRows(orders, items, user, a.menu) == PurchaseRows(orders, items, user, b.menu);
  }

  /** The body of an order's detail response. */
  datatype OrderDetail = OrderDetail(id: nat, order: Order, user: nat, orderItems: map<nat, OrderItem>)

  /** `get_order_items`: the items whose order is `orderId`, each as stored. */
  function OrderItemsOf(items: map<nat, OrderItem>, orderId: nat): (r: map<nat, OrderItem>)
    ensures forall k :: k in r <==> k in items && items[k].order == orderId
    ensures forall k :: k in r ==> r[k] == items[k]
  {
    map k | k in items && items[k].order == orderId :: items[k]
  }

  /** `OrderDetailSerializer`: the order, its owner (`get_user`) and its items (`get_order_items`). */
  function OrderDetailOf(orders: map<nat, Order>, items: map<nat, OrderItem>, orderId: nat): (r: OrderDetail)
    requires orderId in orders
    ensures r.id == orderId && r.order == orders[orderId] && r.user == orders[orderId].user
    ensures forall k :: k in r.orderItems <==> k in items && items[k].order == orderId
    ensures forall k :: k in r.orderItems ==> r.orderItems[k] == items[k]
  {
    OrderDetail(orderId, orders[orderId], orders[orderId].user, OrderItemsOf(items, orderId))
  }

  /** The item lists of two different orders never share an item. */
  lemma OrderItemsAreDisjoint(items: map<nat, OrderItem>, a: nat, b: nat)
    requires a != b
    ensures OrderItemsOf(items, a).Keys !! OrderItemsOf(items, b).Keys
  {
  }
}

=== FILE: core_store.dfy ===
/**
 * The database tables of the core app as maps from primary key to row, the
 * constraints the schema enforces on them, and the persisting half of
 * Category.save and Menu.save.
 */
module CoreStore {
  import opened Wrappers
  import opened CoreModels

  /** A snapshot of the tables, with the next value of each primary-key sequence. */
  datatype Db = Db(
    categories: map<nat, Category>,
    menus: map<nat, Menu>,
    orders: map<nat, Order>,
    items: map<nat, OrderItem>,
    nextCategory: nat,
    nextMenu: nat,
    nextOrder: nat,
    nextItem: nat)

  /** Why the database refuses a write. */
  datatype SaveError = Duplicate(field: string) | MissingReference(field: string)

  /** The unique text columns of the category and menu tables. */
  datatype Column = Name | Slug

  function CategoryColumn(c: Category, col: Column): string
  {
    match col
    case Name => c.name
    case Slug => c.slug
  }

  function MenuColumn(m: Menu, col: Column): string
  {
    match col
    case Name => m.name
    case Slug => m.slug
  }

  ghost predicate KeysBelow<T>(table: map<nat, T>, next: nat)
  {
    forall k :: k in table ==> k < next
  }

  /** No two categories share a value of `col`. */
  ghost predicate CategoriesUnique(table: map<nat, Category>, col: Column)
  {
    forall a, b :: a in table && b in table && CategoryColumn(table[a], col) == CategoryColumn(table[b], col) ==> a == b
  }

  /** No two menus share a value of `col`. */
  ghost predicate MenusUnique(table: map<nat, Menu>, col: Column)
  {
    forall a, b :: a in table && b in table && MenuColumn(table[a], col) == MenuColumn(table[b], col) ==> a == b
  }

  /** Some category other than `except` already holds `value` in `col`. */
  predicate CategoryTaken(table: map<nat, Category>, except: nat, col: Column, value: string)
  {
    exists k | k in table :: k != except && CategoryColumn(table[k], col) == value
  }

  /** Some menu other than `except` already holds `value` in `col`. */
  predicate MenuTaken(table: map<nat, Menu>, except: nat, col: Column, value: string)
  {
    exists k | k in table :: k != except && MenuColumn(table[k], col) == value
  }

  /** The schema's constraints, and the slug defaulting every saved row went through. */
  ghost predicate DbValid(db: Db, slugify: string -> string)
  {
    && KeysBelow(db.categories, db.nextCategory)
    && KeysBelow(db.menus, db.nextMenu)
    && KeysBelow(db.orders, db.nextOrder)
    && KeysBelow(db.items, db.nextItem)
    && CategoriesUnique(db.categories, Name) && CategoriesUnique(db.categories, Slug)
    && MenusUnique(db.menus, Name) && MenusUnique(db.menus, Slug)
    && (forall k :: k in db.categories ==> CategorySettled(db.categories[k], slugify))
    && (forall k :: k in db.menus ==> MenuSettled(db.menus[k], slugify))
    && (forall k :: k in db.menus && db.menus[k].category.Some? ==>
          db.menus[k].category.value in db.categories)
    && (forall k :: k in db.items ==> db.items[k].order in db.orders)
    && (forall k :: k in db.items && db.items[k].menu.Some? ==> db.items[k].menu.value in db.menus)
  }

  /** The key a save writes to: the instance's own primary key, or the next one of the sequence. */
  function TargetKey(pk: Option<nat>, next: nat): (k: nat)
    ensures pk.None? ==> k == next
    ensures pk.Some? ==> k == pk.value
  {
    if pk.Some? then pk.value else next
  }

  /**
   * The sequence value after a save: never at or below a key in use. This is
   * SQLite's AUTOINCREMENT, which also moves past a key written explicitly.
   */
  function NextAfter(pk: Option<nat>, next: nat): (n: nat)
    ensures next <= n && TargetKey(pk, next) < n
  {
    if pk.None? then next + 1
    else if pk.value >= next then pk.value + 1
    else next
  }

  /** What saving category `c` (with primary key `pk`, if any) does to the tables. */
  function SaveCategorySpec(db: Db, pk: Option<nat>, c: Category, slugify: string -> string)
    : (r: (Db, Category, Result<nat, SaveError>))
  {
    var saved := SavedCategory(c, slugify);
    var key := TargetKey(pk, db.nextCategory);
    if CategoryTaken(db.categories, key, Name, saved.name) then (db, saved, Err(Duplicate("name")))
    else if CategoryTaken(db.categories, key, Slug, saved.slug) then (db, saved, Err(Duplicate("slug")))
    else (db.(categories := db.categories[key := saved],
              nextCategory := NextAfter(pk, db.nextCategory)), saved, Ok(key))
  }

  /** What saving menu `m` (with primary key `pk`, if any) does to the tables. */
  function SaveMenuSpec(db: Db, pk: Option<nat>, m: Menu, slugify: string -> string)
    : (r: (Db, Menu, Result<nat, SaveError>))
  {
    var saved := SavedMenu(m, slugify);
    var key := TargetKey(pk, db.nextMenu);
    if MenuTaken(db.menus, key, Name, saved.name) then (db, saved, Err(Duplicate("name")))
    else if MenuTaken(db.menus, key, Slug, saved.slug) then (db, saved, Err(Duplicate("slug")))
    else if saved.category.Some? && saved.category.value !in db.categories then
      (db, saved, Err(MissingReference("category")))
    else (db.(menus := db.menus[key := saved], nextMenu := NextAfter(pk, db.nextMenu)), saved, Ok(key))
  }

  /**
   * Saving a category: the slug is defaulted whether or not the write goes
   * through; the write happens exactly when neither the name nor the slug
   * is held by another row, and then touches that one row only.
   */
  lemma SaveCategoryOutcome(db: Db, pk: Option<nat>, c: Category, slugify: string -> string)
    ensures var (db', saved, res) := SaveCategorySpec(db, pk, c, slugify);
      && saved == SavedCategory(c, slugify)
      && (res.Ok? <==> !CategoryTaken(db.categories, TargetKey(pk, db.nextCategory), Name, saved.name)
                       && !CategoryTaken(db.categories, TargetKey(pk, db.nextCategory), Slug, saved.slug))
      && (res.Err? ==> db' == db)
      && (res.Ok? ==> res.value == TargetKey(pk, db.nextCategory)
                      && db'.categories == db.categories[res.value := saved]
                      && db' == db.(categories := db'.categories, nextCategory := db'.nextCategory))
  {
  }

  /** Writing a category row whose `col` no other row holds keeps `col` unique. */
  lemma CategoryWriteKeepsUnique(table: map<nat, Category>, key: nat, c: Category, col: Column)
    requires CategoriesUnique(table, col) && !CategoryTaken(table, key, col, CategoryColumn(c, col))
    ensures CategoriesUnique(table[key := c], col)
  {
  }

  /** Writing a menu row whose `col` no other row holds keeps `col` unique. */
  lemma MenuWriteKeepsUnique(table: map<nat, Menu>, key: nat, m: Menu, col: Column)
    requires MenusUnique(table, col) && !MenuTaken(table, key, col, MenuColumn(m, col))
    ensures MenusUnique(table[key := m], col)
  {
  }

  /** Saving a category keeps the schema's constraints. */
  lemma {:induction false} SaveCategoryKeepsValid(db: Db, pk: Option<nat>, c: Category, slugify: string -> string)
    requires DbValid(db, slugify)
    ensures DbValid(SaveCategorySpec(db, pk, c, slugify).0, slugify)
  {
    var (db', saved, res) := SaveCategorySpec(db, pk, c, slugify);
    if res.Ok? {
      var key := res.value;
      CategoryWriteKeepsUnique(db.categories, key, saved, Name);
      CategoryWriteKeepsUnique(db.categories, key, saved, Slug);
      SavedRowsAreSettled(c, Menu(None, "", "", "", 0, 0, 0, true), slugify);
      assert db' == db.(categories := db.categories[key := saved], nextCategory := NextAfter(pk, db.nextCategory));
    }
  }

  /** Saving a menu keeps the schema's constraints. */
  lemma {:induction false} SaveMenuKeepsValid(db: Db, pk: Option<nat>, m: Menu, slugify: string -> string)
    requires DbValid(db, slugify)
    ensures DbValid(SaveMenuSpec(db, pk, m, slugify).0, slugify)
  {
    var (db', saved, res) := SaveMenuSpec(db, pk, m, slugify);
    if res.Ok? {
      var key := res.value;
      MenuWriteKeepsUnique(db.menus, key, saved, Name);
      MenuWriteKeepsUnique(db.menus, key, saved, Slug);
      SavedRowsAreSettled(Category("", "", true), m, slugify);
      assert db' == db.(menus := db.menus[key := saved], nextMenu := NextAfter(pk, db.nextMenu));
    }
  }

  /** Saving the instance a successful save returned, under its key, changes nothing. */
  lemma {:induction false} SaveCategoryTwice(db: Db, pk: Option<nat>, c: Category, slugify: string -> string)
    requires DbValid(db, slugify)
    requires SaveCategorySpec(db, pk, c, slugify).2.Ok?
    ensures var (db', saved, res) := SaveCategorySpec(db, pk, c, slugify);
      SaveCategorySpec(db', Some(res.value), saved, slugify) == (db', saved, Ok(res.value))
  {
    var (db', saved, res) := SaveCategorySpec(db, pk, c, slugify);
    SaveCategoryKeepsValid(db, pk, c, slugify);
    SavedRowsAreSettled(c, Menu(None, "", "", "", 0, 0, 0, true), slugify);
    var key := res.value;
    assert key in db'.categories && db'.categories[key] == saved;
    assert !CategoryTaken(db'.categories, key, Name, saved.name);
    assert !CategoryTaken(db'.categories, key, Slug, saved.slug);
    assert db'.categories[key := saved] == db'.categories;
  }

  /** Re-saving a stored menu, as the checkout does, writes the row back unchanged. */
  lemma ResaveMenuChangesNothing(db: Db, k: nat, slugify: string -> string)
    requires DbValid(db, slugify) && k in db.menus
    ensures SaveMenuSpec(db, Some(k), db.menus[k], slugify) == (db, db.menus[k], Ok(k))
  {
    var m := db.menus[k];
    assert !MenuTaken(db.menus, k, Name, m.name);
    assert !MenuTaken(db.menus, k, Slug, m.slug);
    assert db.menus[k := m] == db.menus;
  }

  /** Saving a menu, accepted or refused, never touches the order items. */
  lemma SaveMenuKeepsItems(db: Db, pk: Option<nat>, m: Menu, slugify: string -> string)
    ensures SaveMenuSpec(db, pk, m, slugify).0.items == db.items
  {
  }

  /** The tables held by a running server; `slugify` is Django's, left uninterpreted. */
  class Store {
    var categories: map<nat, Category>
    var menus: map<nat, Menu>
    var orders: map<nat, Order>
    var items: map<nat, OrderItem>
    var nextCategory: nat
    var nextMenu: nat
    var nextOrder: nat
    var nextItem: nat
    const slugify: string -> string

    function Snapshot(): (db: Db)
      reads this
    {
      Db(categories, menus, orders, items, nextCategory, nextMenu, nextOrder, nextItem)
    }

    ghost predicate Valid()
      reads this
    {
      DbValid(Snapshot(), slugify)
    }

    constructor (slugify: string -> string)
      ensures Valid() && this.slugify == slugify
      ensures Snapshot() == Db(map[], map[], map[], map[], 0, 0, 0, 0)
    {
      this.slugify := slugify;
      categories, menus, orders, items := map[], map[], map[], map[];
      nextCategory, nextMenu, nextOrder, nextItem := 0, 0, 0, 0;
    }

    /** `Category.save`: default the slug, then insert or update the row. */
    method SaveCategory(pk: Option<nat>, c: Category) returns (saved: Category, r: Result<nat, SaveError>)
      requires Valid()
      modifies this
      ensures Valid()
      ensures (Snapshot(), saved, r) == SaveCategorySpec(old(Snapshot()), pk, c, slugify)
    {
      ghost var db := Snapshot();
      SaveCategoryKeepsValid(db, pk, c, slugify);
      saved := c;
      if saved.slug == "" {
        saved := saved.(slug := slugify(saved.name));
      }
      var key := TargetKey(pk, nextCategory);
      if CategoryTaken(categories, key, Name, saved.name) {
        r := Err(Duplicate("name"));
      } else if CategoryTaken(categories, key, Slug, saved.slug) {
        r := Err(Duplicate("slug"));
      } else {
        categories := categories[key := saved];
        nextCategory := NextAfter(pk, nextCategory);
        r := Ok(key);
      }
    }

    /** `Menu.save`: default the slug, then insert or update the row. */
    method SaveMenu(pk: Option<nat>, m: Menu) returns (saved: Menu, r: Result<nat, SaveError>)
      requires Valid()
      modifies this
      ensures Valid()
      ensures (Snapshot(), saved, r) == SaveMenuSpec(old(Snapshot()), pk, m, slugify)
    {
      ghost var db := Snapshot();
      SaveMenuKeepsValid(db, pk, m, slugify);
      saved := m;
      if saved.slug == "" {
        saved := saved.(slug := slugify(saved.name));
      }
      var key := TargetKey(pk, nextMenu);
      if MenuTaken(menus, key, Name, saved.name) {
        r := Err(Duplicate("name"));
      } else if MenuTaken(menus, key, Slug, saved.slug) {
        r := Err(Duplicate("slug"));
      } else if saved.category.Some? && saved.category.value !in categories {
        r := Err(MissingReference("category"));
      } else {
        menus := menus[key := saved];
        nextMenu := NextAfter(pk, nextMenu);
        r := Ok(key);
      }
    }
  }
}

=== FILE: core_views.dfy ===
/**
 * The list and detail views of the core app: which rows each caller sees,
 * and which permission class each HTTP method is checked against.
 */
module CoreViews {
  import opened Wrappers
  import opened AccountsModels
  import opened CoreModels

  // ----- querysets -----

  /** Staff see every row; everybody else sees the active rows only. */
  function ActiveScope<T>(table: map<nat, T>, isActive: T -> bool, staff: bool): (r: map<nat, T>)
    ensures forall k :: k in r <==> k in table && (staff || isActive(table[k]))
    ensures forall k :: k in r ==> r[k] == table[k]
  {
    if staff then table else map k | k in table && isActive(table[k]) :: table[k]
  }

  function CategoryActive(c: Category): bool { c.isActive }
  function MenuActive(m: Menu): bool { m.isActive }
  function CampaignActive(c: Campaign): bool { c.isActive }

  /** `CategoryListCreateView.get_queryset` */
  function CategoryQueryset(categories: map<nat, Category>, caller: Caller): (r: map<nat, Category>)
    ensures forall k :: k in r <==> k in categories && (caller.IsStaff() || categories[k].isActive)
    ensures forall k :: k in r ==> r[k] == categories[k]
  {
    ActiveScope(categories, CategoryActive, caller.IsStaff())
  }

  /** `CampaignListCreateView.get_queryset` */
  function CampaignQueryset(campaigns: map<nat, Campaign>, caller: Caller): (r: map<nat, Campaign>)
    ensures forall k :: k in r <==> k in campaigns && (caller.IsStaff() || campaigns[k].isActive)
    ensures forall k :: k in r ==> r[k] == campaigns[k]
  {
    ActiveScope(campaigns, CampaignActive, caller.IsStaff())
  }

  /** `MenuDetailView.get_queryset`: the rows a detail request can reach. */
  function MenuDetailQueryset(menus: map<nat, Menu>, caller: Caller): (r: map<nat, Menu>)
    ensures forall k :: k in r <==> k in menus && (caller.IsStaff() || menus[k].isActive)
    ensures forall k :: k in r ==> r[k] == menus[k]
  {
    ActiveScope(menus, MenuActive, caller.IsStaff())
  }

  /** ASCII case folding, as SQLite's case-insensitive LIKE does it. */
  function Fold(c: char): (d: char)
    ensures 'A' <= c <= 'Z' ==> d as int == c as int + 32
    ensures !('A' <= c <= 'Z') ==> d == c
  {
    if 'A' <= c <= 'Z' then (c as int + 32) as char else c
  }

  /** `name__icontains=keyword`: the keyword occurs in the name, ignoring case. */
  predicate IContains(name: string, keyword: string)
  {
    exists i | 0 <= i <= |name| - |keyword| :: MatchesAt(name, keyword, i)
  }

  /** The keyword matches the name at offset `i`, ignoring case. */
  predicate MatchesAt(name: string, keyword: string, i: nat)
    requires i + |keyword| <= |name|
  {
    forall j | 0 <= j < |keyword| :: Fold(name[i + j]) == Fold(keyword[j])
  }

  /** The keyword with every letter folded. */
  function FoldAll(s: string): (r: string)
    ensures |r| == |s| && forall j | 0 <= j < |s| :: r[j] == Fold(s[j])
  {
    seq(|s|, j requires 0 <= j < |s| => Fold(s[j]))
  }

  /** `if keyword:` in Python: present and not the empty string. */
  predicate Truthy(keyword: Option<string>)
  {
    keyword.Some? && keyword.value != ""
  }

  /** `MenuListCreateView.get_queryset`: the keyword filter, then the active filter for non-staff. */
  function MenuQueryset(menus: map<nat, Menu>, caller: Caller, keyword: Option<string>): (r: map<nat, Menu>)
    ensures forall k :: k in r <==>
      k in menus && (caller.IsStaff() || menus[k].isActive)
      && (Truthy(keyword) ==> IContains(menus[k].name, keyword.value))
    ensures forall k :: k in r ==> r[k] == menus[k]
  {
    var byName := if Truthy(keyword) then map k | k in menus && IContains(menus[k].name, keyword.value) :: menus[k]
                  else menus;
    ActiveScope(byName, MenuActive, caller.IsStaff())
  }

  /** A keyword only removes rows; no keyword (or an empty one) filters nothing by name. */
  lemma KeywordOnlyNarrows(menus: map<nat, Menu>, caller: Caller, keyword: Option<string>)
    ensures MenuQueryset(menus, caller, keyword).Keys <= MenuQueryset(menus, caller, None).Keys
    ensures !Truthy(keyword) ==> MenuQueryset(menus, caller, keyword) == MenuQueryset(menus, caller, None)
    ensures MenuQueryset(menus, caller, None) == MenuDetailQueryset(menus, caller)
  {
  }

  /** The match ignores case: a name contains a keyword exactly when it contains the folded keyword. */
  lemma {:induction false} IContainsIgnoresCase(name: string, keyword: string)
    ensures IContains(name, keyword) <==> IContains(name, FoldAll(keyword))
  {
    var folded := FoldAll(keyword);
    forall i | 0 <= i <= |name| - |keyword|
      ensures MatchesAt(name, keyword, i) <==> MatchesAt(name, folded, i)
    {
      forall j | 0 <= j < |keyword|
        ensures Fold(folded[j]) == Fold(keyword[j])
      {
        FoldIdempotent(keyword[j]);
      }
    }
    if IContains(name, keyword) {
      var i :| 0 <= i <= |name| - |keyword| && MatchesAt(name, keyword, i);
      assert MatchesAt(name, folded, i);
    }
    if IContains(name, folded) {
      var i :| 0 <= i <= |name| - |folded| && MatchesAt(name, folded, i);
      assert MatchesAt(name, keyword, i);
    }
  }

  lemma FoldIdempotent(c: char)
    ensures Fold(Fold(c)) == Fold(c)
  {
  }

  /** Staff never see fewer rows than anybody else. */
  lemma StaffSeeMore(menus: map<nat, Menu>, keyword: Option<string>, caller: Caller, staff: Caller)
    requires staff.IsStaff()
    ensures MenuQueryset(menus, caller, keyword).Keys <= MenuQueryset(menus, staff, keyword).Keys
    ensures !caller.IsStaff() ==>
      MenuQueryset(menus, staff, keyword).Keys - MenuQueryset(menus, caller, keyword).Keys
        == set k | k in MenuQueryset(menus, staff, keyword) && !menus[k].isActive
  {
  }

  /**
   * `OrderListCreateView.get_queryset`: staff see every order, a customer their
   * own. The anonymous user has no key to filter on (the filter raises).
   */
  function OrderQueryset(orders: map<nat, Order>, caller: Caller): (r: Option<map<nat, Order>>)
    ensures caller.IsStaff() ==> r == Some(orders)
    ensures caller.LoggedIn? && !caller.IsStaff() ==>
      r.Some? && forall k :: k in r.value <==> k in orders && orders[k].user == caller.pk
    ensures caller.Anonymous? <==> r.None?
    ensures r.Some? ==> forall k :: k in r.value ==> r.value[k] == orders[k]
  {
    if caller.IsStaff() then Some(orders)
    else if caller.Anonymous? then None
    else Some(map k | k in orders && orders[k].user == caller.pk :: orders[k])
  }

  /** Two different customers' order lists never overlap. */
  lemma CustomersSeeDisjointOrders(orders: map<nat, Order>, a: Caller, b: Caller)
    requires a.LoggedIn? && b.LoggedIn? && !a.IsStaff() && !b.IsStaff() && a.pk != b.pk
    ensures OrderQueryset(orders, a).value.Keys !! OrderQueryset(orders, b).value.Keys
  {
  }

  // ----- permissions -----

  datatype HttpMethod = GET | POST | PUT | PATCH | DELETE | HEAD | OPTIONS

  /** The permission classes the views choose from; IsStaffOrOwnerAuthenticated is not part of this model. */
  datatype Permission = AllowAny | IsAuthenticated | IsAdminUser | IsStaffOrOwnerAuthenticated

  /** The views whose `get_permissions` branches on the method. */
  datatype View = CategoryList | MenuList | MenuDetail | CampaignList | OrderList
                | ContactList | ReservationList | ReviewList

  /** The catalogue views: readable by anybody, written by admins. */
  predicate Catalogue(v: View)
  {
    v in {CategoryList, MenuList, MenuDetail, CampaignList}
  }

  /** `get_permissions` of each view. */
  function PermissionFor(v: View, m: HttpMethod): (p: Permission)
    ensures p == AllowAny <==>
      (Catalogue(v) && m == GET) || (v == ContactList && m == POST) || (v == ReviewList && m != POST)
    ensures p == IsAdminUser <==>
      (Catalogue(v) && m != GET) || (v in {ContactList, ReservationList} && m != POST)
    ensures p == IsAuthenticated <==>
      (v in {ReservationList, ReviewList} && m == POST) || (v == OrderList && m != GET)
    ensures p == IsStaffOrOwnerAuthenticated <==> v == OrderList && m == GET
  {
    match v
    case CategoryList | MenuList | MenuDetail | CampaignList => if m == GET then AllowAny else IsAdminUser
    case OrderList => if m == GET then IsStaffOrOwnerAuthenticated else IsAuthenticated
    case ContactList => if m == POST then AllowAny else IsAdminUser
    case ReservationList => if m == POST then IsAuthenticated else IsAdminUser
    case ReviewList => if m == POST then IsAuthenticated else AllowAny
  }

  /**
   * Whether a permission admits a caller. IsAdminUser tests the staff flag;
   * the verdict of IsStaffOrOwnerAuthenticated is given, since its code is
   * not part of this model.
   */
  predicate Grants(p: Permission, caller: Caller, staffOrOwnerVerdict: bool)
  {
    match p
    case AllowAny => true
    case IsAuthenticated => caller.IsAuthenticated()
    case IsAdminUser => caller.IsStaff()
    case IsStaffOrOwnerAuthenticated => staffOrOwnerVerdict
  }

  /** Nobody but staff may write to the catalogue. */
  lemma CatalogueWritesNeedStaff(v: View, m: HttpMethod, caller: Caller, verdict: bool)
    requires Catalogue(v) && m != GET
    ensures Grants(PermissionFor(v, m), caller, verdict) <==> caller.IsStaff()
  {
  }

  /** The anonymous user gets through exactly where the permission is AllowAny (orders aside). */
  lemma AnonymousAccess(v: View, m: HttpMethod, verdict: bool)
    requires v != OrderList
    ensures Grants(PermissionFor(v, m), Anonymous, verdict) <==>
      (Catalogue(v) && m == GET) || (v == ContactList && m == POST) || (v == ReviewList && m != POST)
  {
  }

  /** Staff pass every check the views make except the order list's own class. */
  lemma StaffPassEverywhere(v: View, m: HttpMethod, caller: Caller, verdict: bool)
    requires caller.IsStaff() && !(v == OrderList && m == GET)
    ensures Grants(PermissionFor(v, m), caller, verdict)
  {
  }

  /** A HEAD or OPTIONS request on a catalogue list is checked as a write: only staff pass. */
  lemma HeadIsNotRead(v: View, caller: Caller, verdict: bool)
    requires Catalogue(v) && !caller.IsStaff()
    ensures !Grants(PermissionFor(v, HEAD), caller, verdict)
    ensures !Grants(PermissionFor(v, OPTIONS), caller, verdict)
  {
  }
}

=== FILE: json_int.dfy ===
/**
 * Python's `int(...)` applied to a value of a parsed JSON request body, as
 * the checkout does to each entry's quantity.
 */
module JsonInt {
  import opened Wrappers

  /**
   * A Python float as the JSON parser produces it: a finite value, or the
   * infinity a number too large for a double (such as `1e400`) becomes.
   */
  datatype Float = Finite(x: real) | Infinite(negative: bool)

  /**
   * A JSON value as the request parser hands it to the view. A number
   * written without fraction or exponent is an exact Python int; any other
   * number is a float.
   */
  datatype JsonValue = JInt(n: int) | JFloat(f: Float) | JString(s: string) | JBool(b: bool) | JNull | JContainer

  predicate IsDigit(c: char) { '0' <= c <= '9' }

  predicate AllDigits(s: string) { forall i | 0 <= i < |s| :: IsDigit(s[i]) }

  /** The value of a string of decimal digits, most significant first. */
  function DigitsValue(s: string): (n: nat)
    requires AllDigits(s)
  {
    if s == [] then 0 else DigitsValue(s[..|s| - 1]) * 10 + (s[|s| - 1] as int - '0' as int)
  }

  /** The digits after an optional leading sign. */
  function Unsigned(s: string): (d: string)
    ensures |d| <= |s|
  {
    if |s| > 0 && (s[0] == '+' || s[0] == '-') then s[1..] else s
  }

  /** What `int(text)` accepts: an optional sign and at least one decimal digit. */
  predicate IsIntLiteral(s: string)
  {
    |Unsigned(s)| > 0 && AllDigits(Unsigned(s))
  }

  function ParseInt(s: string): (r: Option<int>)
    ensures r.Some? <==> IsIntLiteral(s)
    ensures r.Some? && |s| > 0 && s[0] == '-' ==> r.value <= 0
    ensures r.Some? && !(|s| > 0 && s[0] == '-') ==> r.value >= 0
  {
    if !IsIntLiteral(s) then None
    else if s[0] == '-' then Some(-(DigitsValue(Unsigned(s)) as int))
    else Some(DigitsValue(Unsigned(s)))
  }

  /** `int(x)` of a float: truncation toward zero (not Dafny's floor). */
  function Truncate(x: real): (n: int)
    ensures 0.0 <= x ==> 0 <= n && n as real <= x < n as real + 1.0
    ensures x < 0.0 ==> n <= 0 && n as real - 1.0 < x <= n as real
  {
    if x >= 0.0 then x.Floor else -((-x).Floor)
  }

  /** `int(value)`; None stands for the ValueError, TypeError or OverflowError it raises. */
  function PyInt(v: JsonValue): (r: Option<int>)
    ensures r.None? <==> v.JNull? || v.JContainer? || (v.JString? && !IsIntLiteral(v.s))
                         || (v.JFloat? && v.f.Infinite?)
  {
    match v
    case JInt(n) => Some(n)
    case JFloat(Finite(x)) => Some(Truncate(x))
    case JFloat(Infinite(_)) => None
    case JString(s) => ParseInt(s)
    case JBool(b) => Some(if b then 1 else 0)
    case JNull => None
    case JContainer => None
  }

  /** The decimal digits of a natural number. */
  function ShowNat(n: nat): (s: string)
    ensures |s| > 0 && AllDigits(s)
  {
    if n < 10 then [('0' as int + n) as char]
    else ShowNat(n / 10) + [('0' as int + n % 10) as char]
  }

  /** The decimal text of an integer, as a client would send it. */
  function ShowInt(n: int): (s: string)
  {
    if n < 0 then "-" + ShowNat(-n) else ShowNat(n)
  }

  lemma {:induction false} DigitsOfShowNat(n: nat)
    ensures DigitsValue(ShowNat(n)) == n
  {
    if n >= 10 {
      var s := ShowNat(n);
      assert s[..|s| - 1] == ShowNat(n / 10);
      DigitsOfShowNat(n / 10);
    }
  }

  /** Every integer a client writes as text comes back unchanged. */
  lemma {:induction false} ParseShowInt(n: int)
    ensures ParseInt(ShowInt(n)) == Some(n)
  {
    var s := ShowInt(n);
    if n < 0 {
      assert Unsigned(s) == ShowNat(-n);
      DigitsOfShowNat(-n);
    } else {
      assert Unsigned(s) == ShowNat(n);
      DigitsOfShowNat(n);
    }
  }

  /** Integral quantities pass through `int()` unchanged, whether sent as numbers, floats or text. */
  lemma {:induction false} IntegralQuantitiesUnchanged(n: int)
    ensures PyInt(JInt(n)) == Some(n)
    ensures PyInt(JFloat(Finite(n as real))) == Some(n)
    ensures PyInt(JString(ShowInt(n))) == Some(n)
  {
    ParseShowInt(n);
  }
}

=== FILE: top_rated.dfy ===
/**
 * `TopRatedMenus.get_queryset`: active menus, annotated with the average
 * rating of their reviews, in descending order of that average, cut to four.
 */
module TopRated {
  import opened CoreModels

  const TopRatedLimit := 4

  /** Every review rating passed its validators. */
  ghost predicate RatingsValid(reviews: map<nat, Review>)
  {
    forall k :: k in reviews ==> reviews[k].rating <= MaxRating
  }

  /** The sum and the number of the ratings of `menu` among the reviews keyed in `keys`. */
  ghost function RatingTotals(reviews: map<nat, Review>, keys: set<nat>, menu: nat): (t: (nat, nat))
    requires keys <= reviews.Keys
    ensures t.1 <= |keys|
    ensures RatingsValid(reviews) ==> t.0 <= MaxRating * t.1
    ensures t.1 == 0 ==> t.0 == 0
    ensures t.1 == 0 <==> forall k | k in keys :: reviews[k].menu != menu
    decreases keys
  {
    if keys == {} then (0, 0)
    else
      var k :| k in keys;
      var rest := RatingTotals(reviews, keys - {k}, menu);
      if reviews[k].menu == menu then (rest.0 + reviews[k].rating, rest.1 + 1) else rest
  }

  /** `Avg("review__rating")`: NULL for a menu without reviews. */
  datatype Average = NoReviews | Mean(value: real)

  /** A mean of `count` ratings summing to `sum`, each at most `MaxRating`, lies in the rating range. */
  lemma MeanInRange(sum: nat, count: nat)
    requires 0 < count
    ensures sum <= MaxRating * count ==> 0.0 <= sum as real / count as real <= MaxRating as real
  {
    if sum <= MaxRating * count {
      var c := count as real;
      calc {
        sum as real / c;
      <= (MaxRating * count) as real / c;
      == MaxRating as real * c / c;
      == MaxRating as real;
      }
    }
  }

  /** `Avg("review__rating")` of one menu: NULL exactly when no review is about it, else a mean in 0..5. */
  ghost function AverageRating(reviews: map<nat, Review>, menu: nat): (a: Average)
    ensures a.NoReviews? <==> forall k | k in reviews :: reviews[k].menu != menu
    ensures RatingsValid(reviews) && a.Mean? ==> 0.0 <= a.value <= MaxRating as real
  {
    var t := RatingTotals(reviews, reviews.Keys, menu);
    if t.1 == 0 then NoReviews
    else MeanInRange(t.0, t.1); Mean(t.0 as real / t.1 as real)
  }

  /**
   * The ascending order of the annotation. Where NULL goes depends on the
   * database: above every value (`nullsHigh`, PostgreSQL) or below (SQLite, MySQL).
   */
  predicate AtMost(a: Average, b: Average, nullsHigh: bool)
  {
    match (a, b)
    case (Mean(x), Mean(y)) => x <= y
    case (NoReviews, NoReviews) => true
    case (NoReviews, Mean(_)) => !nullsHigh
    case (Mean(_), NoReviews) => nullsHigh
  }

  lemma AtMostIsTotalPreorder(a: Average, b: Average, c: Average, nullsHigh: bool)
    ensures AtMost(a, a, nullsHigh)
    ensures AtMost(a, b, nullsHigh) || AtMost(b, a, nullsHigh)
    ensures AtMost(a, b, nullsHigh) && AtMost(b, c, nullsHigh) ==> AtMost(a, c, nullsHigh)
  {
  }

  /** `lo` sorts no later than `hi` in the ascending order of `key`. */
  predicate Ranks(key: nat -> Average, nullsHigh: bool, lo: nat, hi: nat)
  {
    AtMost(key(lo), key(hi), nullsHigh)
  }

  /** `m` has the greatest key in `pool`. */
  ghost predicate IsBest(key: nat -> Average, nullsHigh: bool, m: nat, pool: set<nat>)
  {
    m in pool && forall x :: x in pool ==> Ranks(key, nullsHigh, x, m)
  }

  lemma {:induction false} BestExists(key: nat -> Average, nullsHigh: bool, pool: set<nat>)
    requires pool != {}
    ensures exists m :: IsBest(key, nullsHigh, m, pool)
  {
    var y :| y in pool;
    AtMostIsTotalPreorder(key(y), key(y), key(y), nullsHigh);
    if pool - {y} == {} {
      assert pool == {y};
      assert IsBest(key, nullsHigh, y, pool);
    } else {
      BestExists(key, nullsHigh, pool - {y});
      var m :| IsBest(key, nullsHigh, m, pool - {y});
      if AtMost(key(y), key(m), nullsHigh) {
        assert IsBest(key, nullsHigh, m, pool);
      } else {
        AtMostIsTotalPreorder(key(y), key(m), key(y), nullsHigh);
        forall x | x in pool
          ensures Ranks(key, nullsHigh, x, y)
        {
          AtMostIsTotalPreorder(key(x), key(m), key(y), nullsHigh);
          if x != y {
            assert x in pool - {y};
            assert Ranks(key, nullsHigh, x, m);
          }
        }
        assert IsBest(key, nullsHigh, y, pool);
      }
    }
  }

  function Min(a: nat, b: nat): nat { if a <= b then a else b }

  /** Repeatedly takes a best-rated menu out of `pool`, `n` times at most. */
  ghost function SelectBest(key: nat -> Average, nullsHigh: bool, pool: set<nat>, n: nat): (r: seq<nat>)
    ensures |r| == Min(n, |pool|)
    ensures forall i :: 0 <= i < |r| ==> r[i] in pool
    ensures forall i, j :: 0 <= i < j < |r| ==> r[i] != r[j]
    ensures forall i, j :: 0 <= i < j < |r| ==> Ranks(key, nullsHigh, r[j], r[i])
    ensures forall k, i :: k in pool && k !in r && 0 <= i < |r| ==> Ranks(key, nullsHigh, k, r[i])
    decreases n
  {
    if n == 0 || pool == {} then []
    else
      BestExists(key, nullsHigh, pool);
      var m :| IsBest(key, nullsHigh, m, pool);
      var rest := SelectBest(key, nullsHigh, pool - {m}, n - 1);
      [m] + rest
  }

  /** The annotation of every menu. */
  ghost function AverageKey(reviews: map<nat, Review>): nat -> Average
  {
    (k: nat) => AverageRating(reviews, k)
  }

  ghost function ActiveMenus(menus: map<nat, Menu>): (s: set<nat>)
  {
    set k | k in menus && menus[k].isActive
  }

  /** What the query returns: one of the orders the database may pick among ties. */
  ghost predicate IsTopRated(menus: map<nat, Menu>, reviews: map<nat, Review>, nullsHigh: bool, r: seq<nat>)
  {
    && |r| == Min(TopRatedLimit, |ActiveMenus(menus)|)
    && (forall i :: 0 <= i < |r| ==> r[i] in menus && menus[r[i]].isActive)
    && (forall i, j :: 0 <= i < j < |r| ==> r[i] != r[j])
    && (forall i, j :: 0 <= i < j < |r| ==> Ranks(AverageKey(reviews), nullsHigh, r[j], r[i]))
    && (forall k, i :: k in ActiveMenus(menus) && k !in r && 0 <= i < |r| ==>
          Ranks(AverageKey(reviews), nullsHigh, k, r[i]))
  }

  /**
   * A result of the query: only active menus, at most four, in non-increasing
   * order of average rating, and no active menu left out ranks above one kept.
   */
  ghost function TopRatedMenus(menus: map<nat, Menu>, reviews: map<nat, Review>, nullsHigh: bool): (r: seq<nat>)
    ensures IsTopRated(menus, reviews, nullsHigh, r)
    ensures |r| <= TopRatedLimit
  {
    SelectBest(AverageKey(reviews), nullsHigh, ActiveMenus(menus), TopRatedLimit)
  }

  /** Among the menus returned, those with reviews come in non-increasing order of their mean rating. */
  lemma {:induction false} TopRatedMeansDescend(menus: map<nat, Menu>, reviews: map<nat, Review>,
                                                nullsHigh: bool, r: seq<nat>, i: nat, j: nat)
    requires IsTopRated(menus, reviews, nullsHigh, r)
    requires i < j < |r|
    requires AverageRating(reviews, r[i]).Mean? && AverageRating(reviews, r[j]).Mean?
    ensures AverageRating(reviews, r[j]).value <= AverageRating(reviews, r[i]).value
  {
    assert Ranks(AverageKey(reviews), nullsHigh, r[j], r[i]);
  }
}

=== FILE: wrappers.dfy ===
/** Option and Result, used for the source's missing values and raised errors. */
module Wrappers {

  datatype Option<+T> = None | Some(value: T)

  datatype Result<+T, +E> = Ok(value: T) | Err(error: E)
}
